=== FILE: README.md ===
# devtinder-web client core in Dafny

This project models the state logic of the devtinder-web React client. That client shows a
feed of candidate developer profiles, signs users in and up, and lets them edit their own
profile. Only the parts with real state transitions or pure checks are modelled:

- the `feed` slice of the Redux store (`addFeedUser`, `removeFeedUser`, `clearFeed`);
- the fetch-once hook `useFeedData` (`hasFetched` / `loading` / `error`) and the feed page
  that renders from it;
- the profile-refresh hook `useFetchUser` (fetch only when no user is held at mount);
- logout in the header, together with the header's logo target and account menu;
- the field rules, skill editing and submit gating of the sign-in/sign-up page and of the
  profile editing page;
- the picture and skill display of the profile page.

Everything is pure functions over immutable datatypes. The network, the clock and
`Math.random` are inputs:

- a request's completion is an event carrying the response;
- "today" is a `Date(year, month, day)`;
- a random number is a fraction `num / den` with `num < den`.

The React effects are modelled as step functions. A `Render` event is one render followed
by its commit. An effect runs in that step when its dependency list says it should.
`Run` folds a sequence of events, which lets trace lemmas talk about any interleaving of
renders and completions.

Modules (one file each):

- `Wrappers` holds `Option`.
- `Seqs` holds subsequence facts and the order-keeping filter `Without`.
- `Text` holds JavaScript's `trim`, the `\s` class, `toLowerCase` and the UTF-16
  `length` of a string (`JsLength`).
- `Users` holds the user record, the `user` slice and the backend-message fallback.
- `FeedSlice` models `feedSlice.jsx`, `FeedData` models `useFeedData.jsx` and
  `FetchUser` models `useFetchUser.jsx`.
- `Header`, `Profile` and `Feed` model `Header.jsx`, `Profile.jsx` and `Feed.jsx`.
- `Login` models `Login.jsx` and `UpdateProfile` models `UpdateProfile.jsx`.
- `Validation`, `Skills` and `Avatars` hold the rules those pages share.

## Model

| member | source | states |
|---|---|---|
| FeedSlice.InitialState | src/utils/feedSlice.jsx:5-7 | The slice starts with an empty list, which satisfies the unique-id invariant. |
| FeedSlice.FindIndex | src/utils/feedSlice.jsx:16 | `findIndex` returns -1 exactly when no entry has the id. Otherwise it returns a position carrying the id, with none before it. |
| FeedSlice.AddFeedUser | src/utils/feedSlice.jsx:9-20 | After a merge no two entries share an `_id`. The ids are exactly those of old ∪ `payload.data`. The result is a subsequence of old ++ new. Every kept entry is the first entry of old ++ new with its id. |
| FeedSlice.KeepFirstFromIsDedup | src/utils/feedSlice.jsx:13-17 | The `filter`/`findIndex` test equals the reference scan that skips already-seen ids. Position i survives exactly when its id does not occur before i. |
| FeedSlice.DedupProps | src/utils/feedSlice.jsx:13-17 | The reference scan yields unique ids, and exactly the ids not already seen. It keeps input order (subsequence). |
| FeedSlice.MergeKeepsExisting | src/utils/feedSlice.jsx:13-17 | Existing entries win. Merging into a valid list keeps it as a prefix and appends the first occurrence of each new id, in order. |
| FeedSlice.MergeWithoutDataIsNoOp | src/utils/feedSlice.jsx:10-19 | A payload without `data` counts as `[]`, so a valid list is returned unchanged. |
| FeedSlice.MergeOverlappingPages | src/utils/feedSlice.jsx:13-19 | Merging pages [a, b] then [b', c], where b' has b's id, gives [a, b, c]. The first-received b is kept. |
| FeedSlice.RemoveFeedUser | src/utils/feedSlice.jsx:22-26 | Removal drops every entry with the id. Every other entry keeps its count and the order is preserved. The ids become old − {id}, and uniqueness is preserved. |
| FeedSlice.RemoveIdempotent | src/utils/feedSlice.jsx:22-26 | Removing an id twice equals removing it once. |
| FeedSlice.RemoveAbsentIsNoOp | src/utils/feedSlice.jsx:22-26 | Removing an id that is not present leaves the list unchanged. |
| FeedSlice.ClearFeed | src/utils/feedSlice.jsx:28-30 | Whatever the prior list, `clearFeed` returns the slice to its initial (empty) state. |
| Seqs.Without | src/utils/feedSlice.jsx:25 | `filter(x => key(x) !== k)` leaves no element with key k. It keeps every other element with its multiplicity, and never adds elements. |
| Seqs.WithoutIsSubseq | src/utils/feedSlice.jsx:25 | The filter keeps survivors in their original relative order. |
| FeedData.QueryOf | src/utils/useFeedData.jsx:6 | An omitted `pageNumber` defaults to 1 and an omitted `limit` to 5. Given values are used as they are. |
| FeedData.Mount | src/utils/useFeedData.jsx:10-12 | The hook starts not loading, with a null error, `hasFetched` false, and no request issued. This state satisfies the hook's reachable-state invariant. |
| FeedData.RenderHook | src/utils/useFeedData.jsx:34-38 | A render issues a request, with the hook's query, exactly when the effect's dependency changed and `hasFetched` is false. `loading` is set exactly when a request starts or was already in flight. |
| FeedData.Succeed | src/utils/useFeedData.jsx:22-31 | Success (as written) sets `hasFetched`, clears `loading` and keeps `error`. Because a bare array is dispatched, a valid feed list comes back unchanged. |
| FeedData.SucceedIntended | src/utils/useFeedData.jsx:22-24 | With the payload shaped `{data: users}`, success adds exactly the fetched ids to the feed, keeps ids unique, sets `hasFetched` and clears `loading`. |
| FeedData.Fail | src/utils/useFeedData.jsx:25-31 | Failure stores the error, sets `hasFetched` (no retry) and clears `loading`. It leaves the feed and the request log unchanged. |
| FeedData.StepReachable | src/utils/useFeedData.jsx:12-38 | Every event preserves the reachable-state invariant: at most one request, and it is outstanding exactly while `loading` holds. |
| FeedData.AtMostOneRequest | src/utils/useFeedData.jsx:12-38 | `hasFetched` is component state, so this holds per mount of the feed page. Over any sequence of renders and completions of one mount, at most one `GET /user/feed` is issued. Once issued, the request log never changes. |
| FeedData.OneRequestPerMount | src/utils/useFeedData.jsx:10-38 | Starting from a fresh mount, with any store contents, no sequence of renders and completions produces more than one feed request. |
| FeedData.NoFetchAfterFetched | src/utils/useFeedData.jsx:34-38 | Once `hasFetched` is true, no further request is issued on any later history. |
| FeedData.FirstRenderFetches | src/utils/useFeedData.jsx:14-20 | The first commit after mounting issues exactly one request, with the hook's query, and sets `loading`. |
| FeedData.ErrorOnlyFromFailure | src/utils/useFeedData.jsx:11-31 | Along any history with no failure, `error` keeps its value, which is null after mounting. |
| FetchUser.Mount | src/utils/useFetchUser.jsx:10-12 | At mount the effect has not run, no profile request exists, and the store's user is as given. |
| FetchUser.RenderHook | src/utils/useFetchUser.jsx:12-36 | The hook returns the store's user unchanged. The profile is requested exactly on the first commit, and only when no user is held. |
| FetchUser.Succeed | src/utils/useFetchUser.jsx:24 | Success stores the returned user and does not navigate. |
| FetchUser.Fail | src/utils/useFetchUser.jsx:25-28 | Failure navigates to `/login` and leaves the `user` slice untouched. |
| FetchUser.NoRequestAfterEffect | src/utils/useFetchUser.jsx:12-34 | After the mount effect has run, no later event issues a request (empty dependency list). |
| FetchUser.AtMostOneRequest | src/utils/useFetchUser.jsx:12-34 | Over any history of one mount, at most one profile request is issued. |
| FetchUser.HeldUserNeverFetches | src/utils/useFetchUser.jsx:31-33 | A component that mounts while a user is held never requests the profile. |
| FetchUser.MissingUserFetchesOnce | src/utils/useFetchUser.jsx:31-33 | A component that mounts with no user requests the profile exactly once. |
| Header.RenderBar | src/components/Header.jsx:27-80 | The logo links to `/` exactly when a user is held, otherwise to `/login`. The account menu with Logout is shown exactly when a user is held. |
| Header.LogOut | src/components/Header.jsx:13-22 | Both the success and the failure branch of logout clear the user and navigate to `/login`. |
| Header.LogoutDeauthenticates | src/components/Header.jsx:13-22 | Whatever the server answered, after logout the bar has no menu, the logo links to `/login`, and the profile page finds no profile. |
| Profile.ProfileView | src/components/Profile.jsx:10-68 | With no user only "No profile found" is rendered. Otherwise the card uses the profile picture rule. It shows "No skills added" exactly when the skill list is missing or empty, and the badges otherwise. |
| Avatars.DefaultImage | src/components/Profile.jsx:20-24 | The default picture is male or female when the gender equals that word up to letter case. It is the "other" default in every other case, including a missing gender. |
| Avatars.DefaultIgnoresCase | src/components/Profile.jsx:20-24 | The default picture depends on the gender only up to letter case. |
| Avatars.ProfileImage | src/components/Profile.jsx:18-24 | A truthy (non-empty) `profileImg` is always the picture shown. Otherwise the gender default is used. |
| Avatars.PreviewImage | src/components/UpdateProfile.jsx:50-58 | The preview uses `profileImg` when it is non-blank after `trim`. Otherwise it uses the gender default. |
| Avatars.PreviewAgreesUnlessBlank | src/components/UpdateProfile.jsx:50-58 | The profile page and the edit preview show the same picture except exactly when `profileImg` is non-empty but all whitespace. |
| Feed.RandomIndex | src/components/Feed.jsx:15 | `Math.floor(Math.random() * n)` is in [0, n) for every n > 0. |
| Feed.EveryIndexReachable | src/components/Feed.jsx:15-16 | Every position of the list can be drawn: the draw j/n selects position j. |
| Feed.Screen | src/components/Feed.jsx:8-16 | Loading takes precedence over error, and error over the empty check. A null or empty list gives "No data". Otherwise the shown user is the list entry at the drawn index, and so a member of the list. |
| Feed.FeedQuery | src/components/Feed.jsx:6 | The page calls the hook with its defaults: page 1, limit 5. |
| Feed.MountShowsNoDataThenLoading | src/utils/useFeedData.jsx:10-38 | `loading` starts false, so the first commit with an empty store shows "No data". The mount effect then issues exactly one request, for page 1 with limit 5, and sets `loading`, so the next render shows "Loading". |
| Feed.FetchedUsersNeverShown | src/utils/useFeedData.jsx:23 | As written, a successful fetch into the empty store leaves the list empty and the page at "No data", whatever users were returned. |
| Feed.IntendedFetchShowsAUser | src/utils/feedSlice.jsx:10 | With the payload the reducer reads, a non-empty fetched page fills the store with exactly the fetched ids. The page then shows one of the fetched users. |
| Text.Trim | src/components/Login.jsx:42-43 | `trim` removes only whitespace, and only from the two ends. Its result neither starts nor ends with whitespace, and it is empty exactly when the input is all whitespace. |
| Text.JsLength | src/components/Login.jsx:43 | `.length` counts UTF-16 code units: one per character of the Basic Multilingual Plane and two per character outside it, so it lies between the number of characters and twice that. |
| Text.JsLengthAppend | src/components/Login.jsx:43 | The code-unit length of a concatenation is the sum of the parts' lengths. |
| Text.JsLengthExtremes | src/components/Login.jsx:43 | Without characters outside the Basic Multilingual Plane, `.length` is the character count. With only such characters, it is twice the character count. |
| Validation.NameError | src/components/UpdateProfile.jsx:101-111 | A name is accepted exactly when the code-unit length of its trimmed value reaches the minimum. "Required" is reported exactly for blank input, and "too short" for non-blank input below the minimum. |
| Validation.AstralNameMeetsTwo | src/components/UpdateProfile.jsx:103-111 | A name of one character outside the Basic Multilingual Plane, such as an emoji, passes the profile form's minimum of 2, because its surrogate pair counts twice. |
| Login.NameFieldError | src/components/Login.jsx:40-45 | First and last names are accepted exactly when their trimmed code-unit length is at least 3. "`<field>` is required" is reported exactly for blank input. |
| Login.MatchesEmailIffPattern | src/components/Login.jsx:49 | The split-at-`@` matcher accepts exactly the language of `/^[^\s@]+@[^\s@]+\.[^\s@]+$/`. |
| Login.EmailError | src/components/Login.jsx:47-51 | The email has no error exactly when it matches the pattern. "Email is required" is reported exactly for blank input, and "Invalid email format" exactly for non-blank input that does not match. |
| Login.GenderError | src/components/Login.jsx:53-56 | The gender is valid exactly when it is one of `male`, `female`, `other`. Any other value gets "Select a valid gender". |
| Login.DobError | src/components/Login.jsx:58-78 | The date of birth passes exactly when it is a valid date whose 18th birthday is not after today. "Date of birth is required" is reported exactly for an empty input, "Invalid date format" exactly for text that does not parse, and "You must be at least 18 years old" exactly for a date whose 18th birthday is after today. |
| Login.PasswordError | src/components/Login.jsx:80-91 | The password passes exactly when it has at least 8 UTF-16 code units and contains a lowercase letter, an uppercase letter, a digit and one of `!@#$%^&*`. Only the first failing rule in the fixed order is reported. |
| Login.AstralPasswordIsStrong | src/components/Login.jsx:80-91 | Two emoji followed by `Aa1!` make 8 code units and pass every password rule. |
| Login.FieldErrorIffInvalid | src/components/Login.jsx:36-99 | `validateField` returns `""` exactly when the field satisfies its rule, stated field by field. |
| Login.ErrorsFor | src/components/Login.jsx:137-140 | The error map gets an entry for a validated field exactly when that field is invalid, holding that field's message. It has no other entries. |
| Login.ErrorsEmptyIff | src/components/Login.jsx:137-153 | No error is recorded exactly when every validated field passes. |
| Login.SubmitErrorsEmptyIff | src/components/Login.jsx:133-155 | Sign-up records no error exactly when all six fields and a non-empty skill list pass. Sign-in records none exactly when email and password pass. |
| Login.Submit | src/components/Login.jsx:130-176 | Sign-up posts the form and skills exactly when everything is valid, and sign-in posts email and password exactly when those two are valid. Any error stops before the network, with a non-empty error map. |
| Login.SignInIgnoresOtherFields | src/components/Login.jsx:145-151 | In sign-in mode, forms that agree on email and password get the same errors and the same decision. |
| Login.CompleteAuth | src/components/Login.jsx:157-193 | Success stores the returned user and navigates to `/`. Failure keeps the session and shows the server's non-empty message, else "Something went wrong". |
| Users.BackendMessage | src/components/Login.jsx:178-179 | The shown message is never empty. It is the server's message when one is present and non-empty, otherwise the generic fallback. |
| Skills.AddSkill | src/components/Login.jsx:109-123 | A trimmed input shorter than 2 UTF-16 code units sets the error and leaves the list and box alone. A new trimmed skill is appended and clears box and error. A duplicate changes nothing, so the list never gains a duplicate. |
| Skills.RemoveSkill | src/components/UpdateProfile.jsx:93-95 | Removal deletes every entry equal to the skill and keeps the rest in order with their multiplicities. |
| Skills.AddThenRemove | src/components/UpdateProfile.jsx:77-95 | Removing a skill that was just added restores the previous list. |
| Skills.AddTwiceIsAddOnce | src/components/UpdateProfile.jsx:86-90 | Submitting the same text again after it was added leaves the list unchanged. |
| UpdateProfile.Prefill | src/components/UpdateProfile.jsx:36-58 | Each missing user field pre-fills as `""`, a missing date as the empty input, a present date as that date, and a missing skill list as `[]`. The preview follows the trimmed-picture rule. |
| UpdateProfile.DobError | src/components/UpdateProfile.jsx:117-125 | The date of birth passes exactly when it is a date not after today, or text that does not parse. "Date of Birth is required" is reported exactly for an empty input, and "Date of Birth cannot be in the future" exactly for a date after today. |
| UpdateProfile.Message | src/components/UpdateProfile.jsx:101-129 | Each rule's message is empty exactly when that rule holds. Names need a trimmed code-unit length of at least 2, the gender must be non-empty, the date must pass, and the skill list must be non-empty. |
| UpdateProfile.ValidateForm | src/components/UpdateProfile.jsx:98-131 | The error map has an entry for a key exactly when that rule fails, and every entry is non-empty. |
| UpdateProfile.ValidateFormEmptyIff | src/components/UpdateProfile.jsx:98-132 | No error is recorded exactly when all profile rules hold. |
| UpdateProfile.IsValid | src/components/UpdateProfile.jsx:132 | `validateForm()` returns true exactly when all profile rules hold. |
| UpdateProfile.Submit | src/components/UpdateProfile.jsx:136-146 | Submit aborts exactly when validation fails. Otherwise it sends the names, gender, date and skills as entered. |
| UpdateProfile.MissingFieldsBlockSave | src/components/UpdateProfile.jsx:38-47 | A held user missing a first name, last name, gender or skill list pre-fills a form that cannot be saved without edits. |
| UpdateProfile.CompleteUpdate | src/components/UpdateProfile.jsx:157-163 | Success replaces the held user by the server's user and navigates to `/profile`. Failure keeps the session and shows the server message, else "Something went wrong". |

## Notes on the code

- No code accepts or rejects a candidate. `removeFeedUser` exists but nothing calls it.
  The reducer itself is modelled.
- The feed hook's state is the booleans `hasFetched` and `loading` and an `error`. Its
  `pageNumber` and `limit` are fixed parameters. The model keeps exactly those.
- Logout does not clear the feed slice. It only removes the user and navigates.

## Findings

| source | as written | input that shows it | evidently intended | confidence | as-written member | corrected member |
|---|---|---|---|---|---|---|
| src/utils/useFeedData.jsx:23 | `dispatch(addFeedUser(users))` passes the array itself. The reducer reads `action.payload.data` (src/utils/feedSlice.jsx:10), which is undefined on an array, so it merges `[]`. | Mount the feed page with an empty store. The server answers with one user whose `_id` is "1". The store stays empty and the page shows "No data". | Dispatch `addFeedUser({ data: users })`, so the fetched users are merged into the feed. | high; not executed | Feed.FetchedUsersNeverShown | FeedData.SucceedIntended |

`FeedData.Succeed` models the code as written, and its contract states that a valid feed
comes back unchanged. `FeedData.SucceedIntended` uses the corrected payload. The end-to-end
lemma `Feed.IntendedFetchShowsAUser` builds on it.

## Left out

- HTTP calls (the axios instance, headers, credentials) are not modelled. Each response is
  an input: a success payload or a failure.
- JSX markup, styling and the router are not modelled (the `App.jsx` routes, and the
  mount redirects in `Body.jsx` and at `Login.jsx:17-20`).
- React scheduling is simplified. A render and its commit form one step, and the doubled
  effects of development strict mode are not modelled.
- The `userSlice` reducers are not part of this model. `addUser` is taken to replace the
  held user and `removeUser` to clear it.
- FetchUser.Succeed: takes the returned profile as present. A success response without
  `data.result` dispatches `addUser(undefined)`, whose effect depends on the `userSlice`
  code outside this model.
- Login.CompleteAuth: takes the returned user as present, for the same reason. Both
  branches read `result.data.result` without `?.` (src/components/Login.jsx:164 and 173),
  so a success without it dispatches `addUser(undefined)`.
- UpdateProfile.CompleteUpdate: takes the returned user as present, for the same reason
  (src/components/UpdateProfile.jsx:157).
- Date parsing, `toISOString` formatting, time zones and the `new Date()` clock are not
  modelled. Dates are (year, month, day) triples and "today" is a parameter. The profile
  form's `dobDate > today` is compared at day granularity.
- Math.random is not modelled as a float. It is an exact fraction `num / den` with
  `num < den`, so floating-point rounding of the product is not modelled.
- The 3-second `setTimeout` that clears error messages is not modelled, because it is
  timing rather than state.
- File upload is not modelled: `handleImageChange`, `URL.createObjectURL`, `FormData`
  and the `instanceof File` test (src/components/UpdateProfile.jsx:68-74 and 141-155) are
  browser APIs.
- The per-keystroke `setErrors` of `validateField` is not modelled. Only the `newErrors`
  map that decides submission is.
- `handleRemoveSkill` of src/components/Login.jsx:125-126 is not modelled. Its parameter
  shadows the list, so it calls `filter` on a string. That throws a `TypeError` before
  `setSkills` runs, and the list stays as it was.
- `FeedCard.jsx` is presentation only.
- Avatars.DefaultImage: `toLowerCase` is modelled on ASCII letters only. For comparisons
  with the words "male" and "female" this matches full Unicode lowering, since no
  non-ASCII character lowers to one of their letters. `Text.ToLower` is weaker than the
  full Unicode mapping on other input.
- Text.JsLength: a Dafny string is a sequence of Unicode scalar values, so a JavaScript
  string holding a lone surrogate code unit has no counterpart in the model.
- Text.Trim: the whitespace set is the ECMAScript WhiteSpace and LineTerminator code
  points as listed in `Text.IsWhitespace`. Future Unicode additions to the space
  separators are not tracked.

=== FILE: avatars.dfy ===
/** Which picture a user is shown with: the uploaded one, or a default chosen by gender.
    The default images' addresses live in a configuration file outside this model, so they
    are named rather than spelled out. */
module Avatars {
  import opened Wrappers
  import opened Text
  import opened Users

  datatype Image = Uploaded(url: string) | MaleDefault | FemaleDefault | OtherDefault

  /** `s` equals the lower-case ASCII word `w` up to the case of its letters. */
  predicate SameIgnoringCase(s: string, w: string) {
    |s| == |w| && forall i :: 0 <= i < |s| ==> s[i] == w[i] || s[i] as int + 32 == w[i] as int
  }

  lemma LowerEqualsIff(s: string, w: string)
    requires forall i :: 0 <= i < |w| ==> 'a' <= w[i] <= 'z'
    ensures ToLower(s) == w <==> SameIgnoringCase(s, w)
  {
    if SameIgnoringCase(s, w) {
      assert forall i :: 0 <= i < |s| ==> ToLower(s)[i] == w[i];
    }
    if ToLower(s) == w {
      forall i | 0 <= i < |s| ensures s[i] == w[i] || s[i] as int + 32 == w[i] as int {
        assert LowerChar(s[i]) == w[i];
      }
    }
  }

  /** `gender?.toLowerCase() === "male" ? male : … === "female" ? female : other`. */
  function DefaultImage(gender: Option<string>): (r: Image)
    ensures !r.Uploaded?
    ensures r == MaleDefault <==> gender.Some? && SameIgnoringCase(gender.value, "male")
    ensures r == FemaleDefault <==> gender.Some? && SameIgnoringCase(gender.value, "female")
  {
    if gender.Some? then
      LowerEqualsIff(gender.value, "male");
      LowerEqualsIff(gender.value, "female");
      if ToLower(gender.value) == "male" then MaleDefault
      else if ToLower(gender.value) == "female" then FemaleDefault
      else OtherDefault
    else OtherDefault
  }

  /** The default depends on the gender only up to letter case. */
  lemma DefaultIgnoresCase(g: string)
    ensures DefaultImage(Some(g)) == DefaultImage(Some(ToLower(g)))
  {
    ToLowerIdempotent(g);
  }

  /** The profile page's picture: `profileImg || default`. Any non-empty value is used, even
      one made only of spaces. */
  function ProfileImage(u: User): (r: Image)
    ensures u.profileImg.Some? && u.profileImg.value != "" ==> r == Uploaded(u.profileImg.value)
    ensures u.profileImg.None? || u.profileImg.value == "" ==> r == DefaultImage(u.gender)
  {
    match u.profileImg
    case Some(img) => if img != "" then Uploaded(img) else DefaultImage(u.gender)
    case None => DefaultImage(u.gender)
  }

  /** The edit form's preview: the uploaded picture only when it is non-blank after `trim`. */
  function PreviewImage(u: User): (r: Image)
    ensures u.profileImg.Some? && !IsBlank(u.profileImg.value) ==> r == Uploaded(u.profileImg.value)
    ensures u.profileImg.None? || IsBlank(u.profileImg.value) ==> r == DefaultImage(u.gender)
  {
    if u.profileImg.Some? && Trim(u.profileImg.value) != "" then Uploaded(u.profileImg.value)
    else DefaultImage(u.gender)
  }

  /** The two pages show the same picture except for a non-empty, all-whitespace image
      value, which the profile page uses as-is and the preview replaces by a default. */
  lemma PreviewAgreesUnlessBlank(u: User)
    ensures ProfileImage(u) == PreviewImage(u) <==>
      !(u.profileImg.Some? && u.profileImg.value != "" && IsBlank(u.profileImg.value))
  {
  }
}

=== FILE: feed.dfy ===
/** The feed page: render-state precedence and the random choice of the user shown. */
module Feed {
  import opened Wrappers
  import opened Users
  import FeedSlice
  import FeedData
  import Seqs

  /** `Math.random()` as the fraction `num / den`, which lies in [0, 1) when `num < den`. */
  datatype Draw = Draw(num: nat, den: nat)

  predicate ValidDraw(d: Draw) {
    d.num < d.den
  }

  /** `Math.floor(Math.random() * length)`, computed exactly on the fraction. */
  function RandomIndex(length: nat, d: Draw): (i: nat)
    requires ValidDraw(d)
    ensures length > 0 ==> i < length
    ensures length == 0 ==> i == 0
  {
    var x := d.num * length;
    assert x / d.den < length || length == 0 by {
      if length > 0 {
        MulLess(d.num, length, d.den);
        DivBelow(x, d.den, length);
      }
    }
    assert length == 0 ==> x / d.den == 0;
    x / d.den
  }

  lemma MulLess(a: nat, n: nat, b: nat)
    requires a < b && n > 0
    ensures a * n < b * n
  {
  }

  /** Integer division by `b` maps `[0, b * n)` into `[0, n)`. */
  lemma DivBelow(x: nat, b: nat, n: nat)
    requires b > 0 && x < b * n
    ensures x / b < n
  {
    var q := x / b;
    assert q * b <= x;
    CancelLess(q, n, b);
  }

  lemma CancelLess(q: int, n: int, b: nat)
    requires b > 0 && q * b < n * b
    ensures q < n
  {
  }

  /** Every position can be drawn: the draw `j / length` selects position `j`. */
  lemma EveryIndexReachable(length: nat, j: nat)
    requires j < length
    ensures ValidDraw(Draw(j, length)) && RandomIndex(length, Draw(j, length)) == j
  {
    var q := (j * length) / length;
    var r := (j * length) % length;
    assert j * length == q * length + r && 0 <= r < length;
    assert (j - q) * length == r;
    if j - q >= 1 {
      MulMono(j - q, length);
    } else if j - q <= -1 {
      MulMono(q - j, length);
    }
  }

  lemma MulMono(k: int, n: nat)
    requires k >= 1
    ensures k * n >= n
  {
  }

  datatype View = Loading | LoadError | NoData | Show(user: User)

  /** The component's early returns in order: loading, then error, then a null or empty
      list, and otherwise the user at a random position. */
  function Screen(loading: bool, error: Option<FeedData.FetchError>, feedData: Option<seq<User>>, d: Draw): (v: View)
    requires ValidDraw(d)
    ensures loading ==> v == Loading
    ensures !loading && error.Some? ==> v == LoadError
    ensures !loading && error.None? && (feedData.None? || feedData.value == []) ==> v == NoData
    ensures v.Show? ==> feedData.Some? && v.user in feedData.value
    ensures !loading && error.None? && feedData.Some? && feedData.value != [] ==>
      v == Show(feedData.value[RandomIndex(|feedData.value|, d)])
  {
    if loading then Loading
    else if error.Some? then LoadError
    else if feedData.None? || |feedData.value| == 0 then NoData
    else Show(feedData.value[RandomIndex(|feedData.value|, d)])
  }

  /** The page calls the hook with no arguments, so with its defaults. */
  function FeedQuery(): (q: FeedData.Query)
    ensures q == FeedData.Query(1, 5)
  {
    FeedData.QueryOf(None, None)
  }

  /** The page as the hook and the feed slice make it look. */
  function PageView(p: FeedData.Page, d: Draw): View
    requires ValidDraw(d)
  {
    Screen(p.hook.loading, p.hook.error, Some(p.feed.data), d)
  }

  /** The page right after mounting, with the store in its initial state. */
  function Mounted(): FeedData.Page {
    FeedData.Page(FeedData.Mount(FeedQuery()), FeedSlice.InitialState())
  }

  /** `loading` starts false and is set only inside the mount effect, so the first commit
      with an empty store shows "No data". The effect then issues the single request, for
      page 1 with limit 5, and the next render shows the loading state. */
  lemma MountShowsNoDataThenLoading(d: Draw)
    requires ValidDraw(d)
    ensures PageView(Mounted(), d) == NoData
    ensures PageView(FeedData.Step(Mounted(), FeedData.Render), d) == Loading
    ensures FeedData.Step(Mounted(), FeedData.Render).hook.requests == [FeedData.Query(1, 5)]
  {
  }

  /** As written, a successful fetch into an empty store leaves the page at "No data",
      whatever users the server returned: the hook dispatches a bare array and the reducer
      reads its `data` field. */
  lemma FetchedUsersNeverShown(users: seq<User>, d: Draw)
    requires ValidDraw(d)
    ensures var p := FeedData.Succeed(FeedData.Step(Mounted(), FeedData.Render), Some(users));
      p.feed.data == [] && PageView(p, d) == NoData
  {
    var p0 := FeedData.Step(Mounted(), FeedData.Render);
    FeedSlice.MergeWithoutDataIsNoOp(p0.feed, FeedData.DispatchedPayload(users));
  }

  /** With the payload the reducer expects, a successful fetch of a non-empty page into an
      empty store shows one of the fetched users, and every fetched id is in the store. */
  lemma IntendedFetchShowsAUser(users: seq<User>, d: Draw)
    requires ValidDraw(d) && users != []
    ensures var p := FeedData.SucceedIntended(FeedData.Step(Mounted(), FeedData.Render), Some(users));
      && FeedSlice.Ids(p.feed.data) == FeedSlice.Ids(users)
      && PageView(p, d).Show?
      && PageView(p, d).user in users
  {
    var p0 := FeedData.Step(Mounted(), FeedData.Render);
    var p := FeedData.SucceedIntended(p0, Some(users));
    assert p0.feed.data + users == users;
    assert p.feed.data != [] by {
      assert users[0] in users;
      assert users[0].id in FeedSlice.Ids(users);
    }
    Seqs.SubseqMembers(p.feed.data, users);
  }
}

=== FILE: feed_data.dfy ===
/** The `useFeedData` hook: a fetch-once state machine over `{hasFetched, loading, error}`
    that requests one page of the feed and dispatches it into the feed slice. The request's
    result is an input: each completion arrives as an event. */
module FeedData {
  import opened Wrappers
  import opened Users
  import FeedSlice

  /** The request parameters `{ pageNumber, limit }`. */
  datatype Query = Query(pageNumber: int, limit: int)

  const DefaultPageNumber: int := 1
  const DefaultLimit: int := 5

  /** The hook's parameters after JavaScript default-parameter substitution: an argument left
      out (`undefined`) takes the default. */
  function QueryOf(pageNumber: Option<int>, limit: Option<int>): (q: Query)
    ensures pageNumber.None? ==> q.pageNumber == DefaultPageNumber
    ensures limit.None? ==> q.limit == DefaultLimit
    ensures pageNumber.Some? ==> q.pageNumber == pageNumber.value
    ensures limit.Some? ==> q.limit == limit.value
  {
    Query(pageNumber.GetOr(DefaultPageNumber), limit.GetOr(DefaultLimit))
  }

  /** A rejected request, as far as the hook keeps it (it only stores and logs it). */
  datatype FetchError = FetchError(status: Option<int>, message: Option<string>)

  /** The hook's local state. `effectDeps` is the `hasFetched` value the effect last ran
      with (none before the first commit); `requests` records every `GET /user/feed`
      issued, in order. */
  datatype Hook = Hook(
    query: Query,
    hasFetched: bool,
    loading: bool,
    error: Option<FetchError>,
    effectDeps: Option<bool>,
    requests: seq<Query>)

  /** The hook together with the global feed slice it dispatches into. */
  datatype Page = Page(hook: Hook, feed: FeedSlice.FeedState)

  /** Network completions and re-renders, in the order the event loop delivers them.
      `Succeeded` carries `result?.data?.result`, which may be missing. */
  datatype Event =
    | Render
    | Succeeded(result: Option<seq<User>>)
    | Failed(err: FetchError)

  /** State right after mounting: `loading = false`, `error = null`, `hasFetched = false`. */
  function Mount(q: Query): (h: Hook)
    ensures !h.hasFetched && !h.loading && h.error.None? && h.requests == []
    ensures Reachable(h)
  {
    Hook(q, false, false, None, None, [])
  }

  /** A render followed by the commit phase: the effect with dependency list `[hasFetched]`
      runs when `hasFetched` differs from the value it last ran with, and its body starts
      `getResult` (which sets `loading` and issues the request) only while `hasFetched` is
      false. */
  function RenderHook(h: Hook): (r: Hook)
    ensures r.hasFetched == h.hasFetched && r.error == h.error && r.query == h.query
    ensures r.effectDeps == Some(h.hasFetched)
    ensures r.requests == h.requests || r.requests == h.requests + [h.query]
    ensures r.requests != h.requests <==> (h.effectDeps != Some(h.hasFetched) && !h.hasFetched)
    ensures r.loading == (h.loading || r.requests != h.requests)
  {
    if h.effectDeps == Some(h.hasFetched) then h
    else if h.hasFetched then h.(effectDeps := Some(h.hasFetched))
    else h.(effectDeps := Some(false), loading := true, requests := h.requests + [h.query])
  }

  /** The payload `useFeedData` dispatches on success: `addFeedUser(users)`, a bare array. */
  function DispatchedPayload(users: seq<User>): FeedSlice.Payload {
    FeedSlice.ListPayload(users)
  }

  /** The payload the reducer reads a list from: `addFeedUser({ data: users })`. */
  function IntendedPayload(users: seq<User>): FeedSlice.Payload {
    FeedSlice.RecordPayload(Some(users))
  }

  /** The success completion as written: dispatch `addFeedUser(result?.data?.result || [])`,
      set `hasFetched`, and clear `loading` in `finally`. `error` is not touched. A completion
      with no request outstanding changes nothing. */
  function Succeed(p: Page, result: Option<seq<User>>): (r: Page)
    ensures !p.hook.loading ==> r == p
    ensures p.hook.loading ==> r.hook.hasFetched && !r.hook.loading
    ensures r.hook.error == p.hook.error && r.hook.requests == p.hook.requests
    ensures FeedSlice.UniqueIds(p.feed.data) ==> r.feed == p.feed
  {
    assert FeedSlice.UniqueIds(p.feed.data) ==>
      FeedSlice.AddFeedUser(p.feed, DispatchedPayload(result.GetOr([]))) == p.feed by {
      if FeedSlice.UniqueIds(p.feed.data) {
        FeedSlice.MergeWithoutDataIsNoOp(p.feed, DispatchedPayload(result.GetOr([])));
      }
    }
    if !p.hook.loading then p
    else
      Page(p.hook.(hasFetched := true, loading := false),
           FeedSlice.AddFeedUser(p.feed, DispatchedPayload(result.GetOr([]))))
  }

  /** The success completion with the payload shaped the way the reducer reads it. */
  function SucceedIntended(p: Page, result: Option<seq<User>>): (r: Page)
    ensures !p.hook.loading ==> r == p
    ensures p.hook.loading ==> r.hook.hasFetched && !r.hook.loading
    ensures r.hook.error == p.hook.error && r.hook.requests == p.hook.requests
    ensures p.hook.loading ==>
      FeedSlice.Ids(r.feed.data) == FeedSlice.Ids(p.feed.data) + FeedSlice.Ids(result.GetOr([]))
    ensures p.hook.loading ==> FeedSlice.UniqueIds(r.feed.data)
  {
    if !p.hook.loading then p
    else
      Page(p.hook.(hasFetched := true, loading := false),
           FeedSlice.AddFeedUser(p.feed, IntendedPayload(result.GetOr([]))))
  }

  /** The failure completion: store the error, set `hasFetched` so that there is no retry, and
      clear `loading`. The feed slice is untouched. */
  function Fail(p: Page, err: FetchError): (r: Page)
    ensures !p.hook.loading ==> r == p
    ensures p.hook.loading ==> r.hook.error == Some(err) && r.hook.hasFetched && !r.hook.loading
    ensures r.feed == p.feed && r.hook.requests == p.hook.requests
  {
    if !p.hook.loading then p
    else Page(p.hook.(error := Some(err), hasFetched := true, loading := false), p.feed)
  }

  function Step(p: Page, e: Event): Page {
    match e
    case Render => Page(RenderHook(p.hook), p.feed)
    case Succeeded(res) => Succeed(p, res)
    case Failed(err) => Fail(p, err)
  }

  function Run(p: Page, es: seq<Event>): Page
    decreases |es|
  {
    if es == [] then p else Run(Step(p, es[0]), es[1..])
  }

  /** The states reachable from `Mount`: at most one request, and it is outstanding exactly
      while `loading` holds. */
  predicate Reachable(h: Hook) {
    && |h.requests| <= 1
    && (forall k :: 0 <= k < |h.requests| ==> h.requests[k] == h.query)
    && (h.requests == [] <==> h.effectDeps.None?)
    && (h.effectDeps.None? ==> !h.hasFetched && !h.loading)
    && (h.effectDeps == Some(true) ==> h.hasFetched)
    && (h.loading <==> (h.effectDeps == Some(false) && !h.hasFetched))
  }

  lemma StepReachable(p: Page, e: Event)
    requires Reachable(p.hook)
    ensures Reachable(Step(p, e).hook)
    ensures p.hook.hasFetched ==> Step(p, e).hook.requests == p.hook.requests
    ensures |p.hook.requests| == 1 ==> Step(p, e).hook.requests == p.hook.requests
  {
    if e.Render? {
      var h := p.hook;
      if h.effectDeps.None? {
        assert RenderHook(h).requests == [h.query];
      } else if h.effectDeps.value {
        assert h.hasFetched;
      } else if h.hasFetched {
        assert RenderHook(h) == h.(effectDeps := Some(true));
      } else {
        assert RenderHook(h) == h;
      }
    }
  }

  /** Fetch-once: however many renders and completions arrive, the hook issues at most one
      request, and only with its own query. */
  lemma {:induction false} AtMostOneRequest(p: Page, es: seq<Event>)
    requires Reachable(p.hook)
    ensures Reachable(Run(p, es).hook)
    ensures |Run(p, es).hook.requests| <= 1
    ensures |p.hook.requests| == 1 ==> Run(p, es).hook.requests == p.hook.requests
    decreases |es|
  {
    if es != [] {
      StepReachable(p, es[0]);
      AtMostOneRequest(Step(p, es[0]), es[1..]);
    }
  }

  /** Each mount of the page sends at most one feed request, whatever renders and
      completions follow and whatever the store held. */
  lemma OneRequestPerMount(q: Query, feed: FeedSlice.FeedState, es: seq<Event>)
    ensures |Run(Page(Mount(q), feed), es).hook.requests| <= 1
  {
    AtMostOneRequest(Page(Mount(q), feed), es);
  }

  /** Once `hasFetched` is true no further request is ever issued. */
  lemma {:induction false} NoFetchAfterFetched(p: Page, es: seq<Event>)
    requires Reachable(p.hook) && p.hook.hasFetched
    ensures Run(p, es).hook.requests == p.hook.requests
    ensures Run(p, es).hook.hasFetched
    decreases |es|
  {
    if es != [] {
      StepReachable(p, es[0]);
      NoFetchAfterFetched(Step(p, es[0]), es[1..]);
    }
  }

  /** The first commit after mounting issues the one request, with the hook's query, and
      shows `loading`. */
  lemma FirstRenderFetches(q: Query, feed: FeedSlice.FeedState)
    ensures Run(Page(Mount(q), feed), [Render]).hook.requests == [q]
    ensures Run(Page(Mount(q), feed), [Render]).hook.loading
  {
  }

  predicate NoFailure(es: seq<Event>) {
    forall k :: 0 <= k < |es| ==> !es[k].Failed?
  }

  /** `error` is written only by the failure completion: along any history without one it
      keeps its value (null after mounting). */
  lemma {:induction false} ErrorOnlyFromFailure(p: Page, es: seq<Event>)
    requires NoFailure(es)
    ensures Run(p, es).hook.error == p.hook.error
    decreases |es|
  {
    if es != [] {
      assert NoFailure(es[1..]) by {
        assert forall k :: 0 <= k < |es[1..]| ==> es[1..][k] == es[k + 1];
      }
      ErrorOnlyFromFailure(Step(p, es[0]), es[1..]);
    }
  }
}

=== FILE: feed_slice.dfy ===
/** The `feed` slice of the store: an ordered list of users with unique `_id`s and the
    three reducers `addFeedUser`, `removeFeedUser` and `clearFeed`. */
module FeedSlice {
  import opened Wrappers
  import opened Users
  import opened Seqs

  datatype FeedState = FeedState(data: seq<User>)

  /** What `dispatch(addFeedUser(x))` puts in `action.payload`: either a bare array, or an
      object whose `data` field may be missing. */
  datatype Payload =
    | ListPayload(items: seq<User>)
    | RecordPayload(data: Option<seq<User>>)

  /** `action.payload.data`. An array has no `data` property, so a bare array yields nothing. */
  function PayloadData(p: Payload): Option<seq<User>> {
    match p
    case ListPayload(_) => None
    case RecordPayload(d) => d
  }

  /** `action.payload.data || []`: the users the reducer merges in. */
  function NewUsers(p: Payload): seq<User> {
    PayloadData(p).GetOr([])
  }

  /** The key `removeFeedUser` filters on. */
  function UserId(u: User): Id {
    u.id
  }

  /** The ids present in a list. */
  function Ids(s: seq<User>): set<Id> {
    set u | u in s :: u.id
  }

  /** The slice's invariant: no two entries share an `_id`. */
  predicate UniqueIds(s: seq<User>) {
    forall i, j :: 0 <= i < j < |s| ==> s[i].id != s[j].id
  }

  lemma IdsAppend(a: seq<User>, b: seq<User>)
    ensures Ids(a + b) == Ids(a) + Ids(b)
  {
    assert forall u :: u in a + b <==> u in a || u in b;
  }

  lemma IdsCons(u: User, s: seq<User>)
    ensures Ids([u] + s) == {u.id} + Ids(s)
  {
    IdsAppend([u], s);
    assert Ids([u]) == {u.id};
  }

  lemma IdsIndex(s: seq<User>, id: Id)
    ensures id in Ids(s) <==> exists k :: 0 <= k < |s| && s[k].id == id
  {
    if id in Ids(s) {
      var u :| u in s && u.id == id;
      var k :| 0 <= k < |s| && s[k] == u;
    }
  }

  /** The initial state: an empty list, which trivially satisfies the invariant. */
  function InitialState(): (st: FeedState)
    ensures |st.data| == 0 && UniqueIds(st.data)
  {
    FeedState([])
  }

  /** The scan of `findIndex` from position `j` on. */
  function FindIndexFrom(s: seq<User>, id: Id, j: nat): (r: int)
    requires j <= |s|
    ensures r == -1 || j <= r < |s|
    ensures r == -1 ==> forall k :: j <= k < |s| ==> s[k].id != id
    ensures r >= 0 ==> s[r].id == id && forall k :: j <= k < r ==> s[k].id != id
    decreases |s| - j
  {
    if j == |s| then -1
    else if s[j].id == id then j
    else FindIndexFrom(s, id, j + 1)
  }

  /** `self.findIndex(u => u._id === id)`: the first position carrying `id`, or -1. */
  function FindIndex(s: seq<User>, id: Id): (r: int)
    ensures -1 <= r < |s|
    ensures r == -1 <==> forall k :: 0 <= k < |s| ==> s[k].id != id
    ensures r >= 0 ==> s[r].id == id && forall k :: 0 <= k < r ==> s[k].id != id
  {
    FindIndexFrom(s, id, 0)
  }

  /** The `filter` of `addFeedUser`, from position `i` on: keep `all[j]` exactly when `j` is
      the first index of its `_id` in the whole of `all`. */
  function KeepFirstFrom(all: seq<User>, i: nat): seq<User>
    requires i <= |all|
    decreases |all| - i
  {
    if i == |all| then []
    else (if FindIndex(all, all[i].id) == i then [all[i]] else []) + KeepFirstFrom(all, i + 1)
  }

  /** `all.filter((user, index, self) => index === self.findIndex(u => u._id === user._id))`. */
  function KeepFirst(all: seq<User>): seq<User> {
    KeepFirstFrom(all, 0)
  }

  /** Reference definition of first-occurrence de-duplication: scan left to right and skip
      every user whose id is in `seen` or was already kept. */
  function Dedup(s: seq<User>, seen: set<Id>): seq<User> {
    if s == [] then []
    else if s[0].id in seen then Dedup(s[1..], seen)
    else [s[0]] + Dedup(s[1..], seen + {s[0].id})
  }

  /** The reference de-duplication keeps one entry per id not already seen, in order. */
  lemma {:induction false} DedupProps(s: seq<User>, seen: set<Id>)
    ensures UniqueIds(Dedup(s, seen))
    ensures Ids(Dedup(s, seen)) == Ids(s) - seen
    ensures Subseq(Dedup(s, seen), s)
  {
    if s != [] {
      assert s == [s[0]] + s[1..];
      IdsCons(s[0], s[1..]);
      if s[0].id in seen {
        DedupProps(s[1..], seen);
        SubseqDropHead(Dedup(s, seen), s);
      } else {
        var rest := Dedup(s[1..], seen + {s[0].id});
        DedupProps(s[1..], seen + {s[0].id});
        IdsCons(s[0], rest);
        assert Dedup(s, seen) == [s[0]] + rest;
        forall i, j | 0 <= i < j < |[s[0]] + rest|
          ensures ([s[0]] + rest)[i].id != ([s[0]] + rest)[j].id
        {
          if i == 0 {
            assert rest[j - 1] in rest;
            assert rest[j - 1].id in Ids(rest);
          }
        }
        assert ([s[0]] + rest)[1..] == rest;
      }
    }
  }

  /** The filter as written computes the reference de-duplication: position `i` survives
      exactly when its id does not occur before it. */
  lemma {:induction false} KeepFirstFromIsDedup(all: seq<User>, i: nat)
    requires i <= |all|
    ensures KeepFirstFrom(all, i) == Dedup(all[i..], Ids(all[..i]))
    decreases |all| - i
  {
    if i < |all| {
      KeepFirstFromIsDedup(all, i + 1);
      SeenGrows(all, i);
      KeepFirstHead(all, i);
      DedupHead(all, i);
    } else {
      assert all[i..] == [];
    }
  }

  /** One step of the filter: position `i` is kept exactly when its id is unseen. */
  lemma KeepFirstHead(all: seq<User>, i: nat)
    requires i < |all|
    ensures KeepFirstFrom(all, i) ==
      (if all[i].id in Ids(all[..i]) then [] else [all[i]]) + KeepFirstFrom(all, i + 1)
  {
    FirstIndexIffUnseen(all, i);
  }

  /** One step of the reference scan, on a suffix of `all`. */
  lemma DedupHead(all: seq<User>, i: nat)
    requires i < |all|
    ensures Dedup(all[i..], Ids(all[..i])) ==
      (if all[i].id in Ids(all[..i]) then [] else [all[i]])
        + Dedup(all[i + 1..], Ids(all[..i]) + {all[i].id})
  {
    var seen := Ids(all[..i]);
    assert all[i..] == [all[i]] + all[i + 1..];
    DedupCons(all[i], all[i + 1..], seen);
    if all[i].id in seen {
      assert seen + {all[i].id} == seen;
    }
  }

  lemma DedupCons(u: User, tail: seq<User>, seen: set<Id>)
    ensures Dedup([u] + tail, seen) ==
      if u.id in seen then Dedup(tail, seen) else [u] + Dedup(tail, seen + {u.id})
  {
    assert ([u] + tail)[0] == u;
    assert ([u] + tail)[1..] == tail;
  }

  lemma SeenGrows(all: seq<User>, i: nat)
    requires i < |all|
    ensures Ids(all[..i + 1]) == Ids(all[..i]) + {all[i].id}
  {
    assert all[..i + 1] == all[..i] + [all[i]];
    IdsAppend(all[..i], [all[i]]);
    assert Ids([all[i]]) == {all[i].id};
  }

  /** Position `i` is the first index of its id exactly when the id does not occur before it. */
  lemma FirstIndexIffUnseen(all: seq<User>, i: nat)
    requires i < |all|
    ensures FindIndex(all, all[i].id) == i <==> all[i].id !in Ids(all[..i])
  {
    IdsIndex(all[..i], all[i].id);
  }

  /** Every entry the filter keeps is the first entry of `all` carrying its id. */
  lemma {:induction false} KeepFirstFromFirstWins(all: seq<User>, i: nat)
    requires i <= |all|
    ensures forall u :: u in KeepFirstFrom(all, i) ==>
      0 <= FindIndex(all, u.id) && all[FindIndex(all, u.id)] == u
    decreases |all| - i
  {
    if i < |all| {
      var rest := KeepFirstFrom(all, i + 1);
      var head: seq<User> := if FindIndex(all, all[i].id) == i then [all[i]] else [];
      assert KeepFirstFrom(all, i) == head + rest;
      KeepFirstFromFirstWins(all, i + 1);
      forall u: User | u in head + rest
        ensures 0 <= FindIndex(all, u.id) && all[FindIndex(all, u.id)] == u
      {
        if u !in rest {
          assert u in head;
          assert u == all[i];
        }
      }
    }
  }

  lemma KeepFirstProps(all: seq<User>)
    ensures UniqueIds(KeepFirst(all))
    ensures Ids(KeepFirst(all)) == Ids(all)
    ensures Subseq(KeepFirst(all), all)
    ensures forall u :: u in KeepFirst(all) ==>
      0 <= FindIndex(all, u.id) && all[FindIndex(all, u.id)] == u
  {
    KeepFirstFromIsDedup(all, 0);
    assert all[0..] == all;
    assert Ids(all[..0]) == {};
    DedupProps(all, {});
    KeepFirstFromFirstWins(all, 0);
  }

  /** `addFeedUser`: merge the old list with `action.payload.data || []`, keeping the first
      entry for each `_id`. */
  function AddFeedUser(state: FeedState, p: Payload): (r: FeedState)
    ensures UniqueIds(r.data)
    ensures Ids(r.data) == Ids(state.data) + Ids(NewUsers(p))
    ensures Subseq(r.data, state.data + NewUsers(p))
    ensures forall u :: u in r.data ==>
      var all := state.data + NewUsers(p);
      0 <= FindIndex(all, u.id) && all[FindIndex(all, u.id)] == u
  {
    var all := state.data + NewUsers(p);
    KeepFirstProps(all);
    IdsAppend(state.data, NewUsers(p));
    FeedState(KeepFirst(all))
  }

  /** In a prefix with unique ids, every entry is the first carrying its id. */
  lemma UniquePrefixFirst(all: seq<User>, n: nat, i: nat)
    requires i < n <= |all|
    requires UniqueIds(all[..n])
    ensures FindIndex(all, all[i].id) == i
  {
    forall k | 0 <= k < i ensures all[k].id != all[i].id {
      assert all[..n][k] == all[k] && all[..n][i] == all[i];
    }
  }

  /** Position `k` holds the first entry of `all` with its id. */
  predicate FirstAt(all: seq<User>, k: nat)
    requires k < |all|
  {
    FindIndex(all, all[k].id) == k
  }

  /** A run of entries that are each the first with their id survives the filter intact. */
  lemma {:induction false} KeepFirstRun(all: seq<User>, n: nat, i: nat)
    requires i <= n <= |all|
    requires forall k :: i <= k < n ==> FirstAt(all, k)
    ensures KeepFirstFrom(all, i) == all[i..n] + KeepFirstFrom(all, n)
    decreases n - i
  {
    if i < n {
      KeepFirstRun(all, n, i + 1);
      assert FirstAt(all, i);
      ConsSlice(all, i, n, KeepFirstFrom(all, i), KeepFirstFrom(all, i + 1), KeepFirstFrom(all, n));
    } else {
      assert all[i..n] == [];
    }
  }

  /** Existing entries win: merging into a list that already satisfies the invariant keeps
      that list intact as a prefix and appends, in order, the first occurrence of every new
      id that was not already present. */
  lemma MergeKeepsExisting(state: FeedState, p: Payload)
    requires UniqueIds(state.data)
    ensures AddFeedUser(state, p).data == state.data + Dedup(NewUsers(p), Ids(state.data))
  {
    var all := state.data + NewUsers(p);
    var n := |state.data|;
    assert all[..n] == state.data && all[0..n] == state.data && all[n..] == NewUsers(p);
    forall k | 0 <= k < n ensures FirstAt(all, k) {
      UniquePrefixFirst(all, n, k);
    }
    KeepFirstRun(all, n, 0);
    KeepFirstFromIsDedup(all, n);
  }

  /** A payload without `data` merges nothing: a list that already satisfies the invariant
      comes back unchanged. */
  lemma MergeWithoutDataIsNoOp(state: FeedState, p: Payload)
    requires PayloadData(p).None?
    requires UniqueIds(state.data)
    ensures AddFeedUser(state, p) == state
  {
    MergeKeepsExisting(state, p);
    assert NewUsers(p) == [];
    assert state.data + [] == state.data;
  }

  /** Two pages that share one id merge into three entries, the shared id kept once and as
      first received. */
  lemma MergeOverlappingPages(a: User, b: User, b2: User, c: User)
    requires a.id != b.id && b2.id == b.id && c.id != a.id && c.id != b.id
    ensures
      var first := AddFeedUser(InitialState(), RecordPayload(Some([a, b])));
      AddFeedUser(first, RecordPayload(Some([b2, c]))).data == [a, b, c]
  {
    FirstPage(a, b);
    SecondPage(a, b, b2, c);
  }

  lemma FirstPage(a: User, b: User)
    requires a.id != b.id
    ensures AddFeedUser(InitialState(), RecordPayload(Some([a, b]))) == FeedState([a, b])
  {
    DedupPair(a, b, {});
    assert Ids(InitialState().data) == {};
    assert NewUsers(RecordPayload(Some([a, b]))) == [a, b];
    MergeKeepsExisting(InitialState(), RecordPayload(Some([a, b])));
    assert InitialState().data + [a, b] == [a, b];
  }

  lemma SecondPage(a: User, b: User, b2: User, c: User)
    requires a.id != b.id && b2.id == b.id && c.id != a.id && c.id != b.id
    ensures AddFeedUser(FeedState([a, b]), RecordPayload(Some([b2, c]))).data == [a, b, c]
  {
    IdsPair(a, b);
    DedupSkipThenKeep(b2, c, Ids([a, b]));
    assert NewUsers(RecordPayload(Some([b2, c]))) == [b2, c];
    MergeKeepsExisting(FeedState([a, b]), RecordPayload(Some([b2, c])));
    assert [a, b] + [c] == [a, b, c];
  }

  lemma IdsPair(a: User, b: User)
    ensures Ids([a, b]) == {a.id, b.id}
  {
    assert [a, b] == [a] + [b] && [b] == [b] + [];
    IdsCons(a, [b]);
    IdsCons(b, []);
  }

  lemma DedupPair(a: User, b: User, seen: set<Id>)
    requires a.id !in seen && b.id !in seen && a.id != b.id
    ensures Dedup([a, b], seen) == [a, b]
  {
    assert [a, b] == [a] + [b] && [b] == [b] + [];
    DedupCons(a, [b], seen);
    DedupCons(b, [], seen + {a.id});
  }

  lemma DedupSkipThenKeep(x: User, y: User, seen: set<Id>)
    requires x.id in seen && y.id !in seen
    ensures Dedup([x, y], seen) == [y]
  {
    assert [x, y] == [x] + [y] && [y] == [y] + [];
    DedupCons(x, [y], seen);
    DedupCons(y, [], seen);
  }

  /** `removeFeedUser`: drop every entry whose `_id` equals the payload. */
  function RemoveFeedUser(state: FeedState, id: Id): (r: FeedState)
    ensures Ids(r.data) == Ids(state.data) - {id}
    ensures Subseq(r.data, state.data)
    ensures forall i :: 0 <= i < |state.data| ==>
      multiset(r.data)[state.data[i]] ==
        if state.data[i].id == id then 0 else multiset(state.data)[state.data[i]]
    ensures UniqueIds(state.data) ==> UniqueIds(r.data)
  {
    var r := Without(state.data, UserId, id);
    IdsWithout(state.data, id);
    WithoutIsSubseq(state.data, UserId, id);
    assert UniqueIds(state.data) ==> UniqueIds(r) by {
      if UniqueIds(state.data) {
        SubseqUnique(r, state.data);
      }
    }
    FeedState(r)
  }

  lemma IdsWithout(s: seq<User>, id: Id)
    ensures Ids(Without(s, UserId, id)) == Ids(s) - {id}
  {
    var r := Without(s, UserId, id);
    forall x | x in Ids(s) - {id} ensures x in Ids(r) {
      var u :| u in s && u.id == x;
      assert UserId(u) != id;
    }
    forall x | x in Ids(r) ensures x in Ids(s) - {id} {
      var u :| u in r && u.id == x;
      var i :| 0 <= i < |r| && r[i] == u;
      assert UserId(r[i]) != id;
    }
  }

  lemma {:induction false} SubseqUnique(a: seq<User>, b: seq<User>)
    requires Subseq(a, b) && UniqueIds(b)
    ensures UniqueIds(a)
    decreases |b|
  {
    if a != [] && b != [] {
      assert b == [b[0]] + b[1..];
      if a[0] == b[0] {
        SubseqUnique(a[1..], b[1..]);
        SubseqMembers(a[1..], b[1..]);
        forall j | 0 < j < |a| ensures a[0].id != a[j].id {
          assert a[j] in a[1..];
          var k :| 0 <= k < |b[1..]| && b[1..][k] == a[j];
          assert b[k + 1] == a[j];
        }
        assert forall i, j :: 0 < i < j < |a| ==> a[1..][i - 1] == a[i] && a[1..][j - 1] == a[j];
      } else {
        SubseqUnique(a, b[1..]);
      }
    }
  }

  /** Removing an id twice is the same as removing it once. */
  lemma RemoveIdempotent(state: FeedState, id: Id)
    ensures RemoveFeedUser(RemoveFeedUser(state, id), id) == RemoveFeedUser(state, id)
  {
    WithoutIdempotent(state.data, UserId, id);
  }

  /** Removing an id that is not in the list changes nothing. */
  lemma RemoveAbsentIsNoOp(state: FeedState, id: Id)
    requires id !in Ids(state.data)
    ensures RemoveFeedUser(state, id) == state
  {
    IdsIndex(state.data, id);
    WithoutAbsent(state.data, UserId, id);
  }

  /** `clearFeed`: whatever the prior list, the slice returns to its initial state. */
  function ClearFeed(state: FeedState): (r: FeedState)
    ensures r == InitialState()
  {
    FeedState([])
  }
}

=== FILE: fetch_user.dfy ===
/** The `useFetchUser` hook: on mount, request the profile if no user is held; a success
    stores the returned user, a failure redirects to the login page. The request's outcome
    arrives as an event. */
module FetchUser {
  import opened Wrappers
  import opened Users

  /** `effectRan`: the mount effect (dependency list `[]`) has run. `inFlight`: the profile
      request is outstanding. `requests`: how many `GET /user/profile` were issued.
      `navigations`: every `navigate(path)` call, in order. */
  datatype Hook = Hook(effectRan: bool, inFlight: bool, requests: nat, navigations: seq<string>)

  /** The hook together with the `user` slice it reads and writes. */
  datatype Scene = Scene(hook: Hook, user: Session)

  datatype Event =
    | Render
    | Succeeded(profile: User)
    | Failed
    | StoreChanged(user: Session)   // another component wrote the `user` slice

  function Mount(user: Session): (s: Scene)
    ensures s.user == user && !s.hook.effectRan && s.hook.requests == 0
  {
    Scene(Hook(false, false, 0, []), user)
  }

  /** One render and its commit. The value handed back to the component is the store's user
      as read during the render; the effect runs on the first commit only, and asks for the
      profile only when that user is absent. */
  function RenderHook(s: Scene): (r: (Scene, Session))
    ensures r.1 == s.user
    ensures r.0.user == s.user && r.0.hook.effectRan
    ensures r.0.hook.navigations == s.hook.navigations
    ensures r.0.hook.requests == s.hook.requests + (if !s.hook.effectRan && s.user.None? then 1 else 0)
    ensures r.0.hook.inFlight == (s.hook.inFlight || (!s.hook.effectRan && s.user.None?))
  {
    var returned := s.user;
    if s.hook.effectRan then (s, returned)
    else if s.user.Some? then (s.(hook := s.hook.(effectRan := true)), returned)
    else (s.(hook := s.hook.(effectRan := true, inFlight := true, requests := s.hook.requests + 1)), returned)
  }

  /** Success: `dispatch(addUser(response.data.result))`. No navigation. */
  function Succeed(s: Scene, profile: User): (r: Scene)
    ensures !s.hook.inFlight ==> r == s
    ensures s.hook.inFlight ==> r.user == Some(profile) && !r.hook.inFlight
    ensures r.hook.navigations == s.hook.navigations && r.hook.requests == s.hook.requests
  {
    if !s.hook.inFlight then s
    else Scene(s.hook.(inFlight := false), AddUser(s.user, profile))
  }

  /** Failure: `navigate("/login")`; nothing is dispatched to the `user` slice. */
  function Fail(s: Scene): (r: Scene)
    ensures !s.hook.inFlight ==> r == s
    ensures s.hook.inFlight ==> r.hook.navigations == s.hook.navigations + [LoginPath]
    ensures r.user == s.user && r.hook.requests == s.hook.requests && !r.hook.inFlight
  {
    if !s.hook.inFlight then s
    else s.(hook := s.hook.(inFlight := false, navigations := s.hook.navigations + [LoginPath]))
  }

  function Step(s: Scene, e: Event): Scene {
    match e
    case Render => RenderHook(s).0
    case Succeeded(u) => Succeed(s, u)
    case Failed => Fail(s)
    case StoreChanged(u) => s.(user := u)
  }

  function Run(s: Scene, es: seq<Event>): Scene
    decreases |es|
  {
    if es == [] then s else Run(Step(s, es[0]), es[1..])
  }

  /** Once the mount effect has run, the request count never changes again. */
  lemma {:induction false} NoRequestAfterEffect(s: Scene, es: seq<Event>)
    requires s.hook.effectRan
    ensures Run(s, es).hook.requests == s.hook.requests
    ensures Run(s, es).hook.effectRan
    decreases |es|
  {
    if es != [] {
      NoRequestAfterEffect(Step(s, es[0]), es[1..]);
    }
  }

  /** Once per mount: along any history, at most one profile request is issued. */
  lemma {:induction false} AtMostOneRequest(s: Scene, es: seq<Event>)
    requires s.hook.requests == 0 && !s.hook.effectRan
    ensures Run(s, es).hook.requests <= 1
    decreases |es|
  {
    if es != [] {
      var s' := Step(s, es[0]);
      if s'.hook.effectRan {
        NoRequestAfterEffect(s', es[1..]);
      } else {
        AtMostOneRequest(s', es[1..]);
      }
    }
  }

  /** A component that mounts while a user is held never requests the profile. */
  lemma HeldUserNeverFetches(u: User, es: seq<Event>)
    ensures Run(Mount(Some(u)), [Render] + es).hook.requests == 0
  {
    var s := Step(Mount(Some(u)), Render);
    assert ([Render] + es)[0] == Render && ([Render] + es)[1..] == es;
    NoRequestAfterEffect(s, es);
  }

  /** A component that mounts with no user requests the profile exactly once. */
  lemma MissingUserFetchesOnce(es: seq<Event>)
    ensures Run(Mount(None), [Render] + es).hook.requests == 1
  {
    var s := Step(Mount(None), Render);
    assert ([Render] + es)[0] == Render && ([Render] + es)[1..] == es;
    NoRequestAfterEffect(s, es);
  }
}

=== FILE: header.dfy ===
/** The navigation bar: where the logo links to, whether the account menu is shown, and
    what Logout does to the session. */
module Header {
  import opened Wrappers
  import opened Users
  import Profile

  /** What the bar renders: the logo's link target and whether the search box and the
      account menu (with Logout) are present. */
  datatype Bar = Bar(logoTarget: string, menuShown: bool)

  function RenderBar(held: Session): (b: Bar)
    ensures b.logoTarget == (if held.Some? then HomePath else LoginPath)
    ensures b.menuShown <==> held.Some?
  {
    Bar(if held.Some? then HomePath else LoginPath, held.Some?)
  }

  datatype LogoutResult = LogoutSucceeded | LogoutFailed

  /** The session left behind and the path navigated to. */
  datatype AfterLogout = AfterLogout(user: Session, navigation: string)

  /** `logOut`: the success branch and the catch branch both remove the user and go to the
      login page. */
  function LogOut(held: Session, result: LogoutResult): (r: AfterLogout)
    ensures r.user.None? && r.navigation == LoginPath
  {
    match result
    case LogoutSucceeded => AfterLogout(RemoveUser(held), LoginPath)
    case LogoutFailed => AfterLogout(RemoveUser(held), LoginPath)
  }

  /** Logout always deauthenticates locally: whatever the server answered, the bar loses its
      menu and links the logo to the login page, and the profile page finds no profile. */
  lemma LogoutDeauthenticates(held: Session, result: LogoutResult)
    ensures RenderBar(LogOut(held, result).user) == Bar(LoginPath, false)
    ensures Profile.ProfileView(LogOut(held, result).user).NoProfileFound?
    ensures LogOut(held, result) == LogOut(held, LogoutSucceeded)
  {
  }
}

=== FILE: login.dfy ===
/** The sign-in / sign-up page: per-field validation, submit gating for the two modes, and
    what a server response does to the session. */
module Login {
  import opened Wrappers
  import opened Text
  import opened Users
  import opened Validation

  datatype Field = FirstName | LastName | Email | Gender | Dob | Password

  /** The field's name in the form state and in the error map. */
  function Key(f: Field): string {
    match f
    case FirstName => "firstName"
    case LastName => "lastName"
    case Email => "email"
    case Gender => "gender"
    case Dob => "dob"
    case Password => "password"
  }

  /** The form state. */
  datatype Form = Form(
    firstName: string,
    lastName: string,
    email: string,
    gender: string,
    dob: DateInput,
    password: string)

  // ---------- names ----------

  /** `firstName` / `lastName`: required, then a `trim().length` of at least 3. The
      messages embed the field's key. */
  function NameFieldError(key: string, value: string): (r: string)
    ensures r == "" <==> JsLength(Trim(value)) >= 3
    ensures r == key + " is required" <==> IsBlank(value)
  {
    NameError(value, 3, key + " is required", key + " must be at least 3 characters")
  }

  // ---------- email ----------

  /** A character of the class `[^\s@]`. */
  predicate Plain(c: char) {
    !IsWhitespace(c) && c != '@'
  }

  predicate AllPlain(s: string) {
    forall i :: 0 <= i < |s| ==> Plain(s[i])
  }

  /** The strings matched by `/^[^\s@]+@[^\s@]+\.[^\s@]+$/`: a non-empty plain run, `@`, a
      non-empty plain run, `.`, a non-empty plain run. */
  predicate EmailPattern(s: string) {
    exists i, k :: 0 < i && i + 1 < k && k + 1 < |s| && s[i] == '@' && s[k] == '.'
      && AllPlain(s[..i]) && AllPlain(s[i + 1..k]) && AllPlain(s[k + 1..])
  }

  /** Position of the first `@`, or `|s|` when there is none. */
  function AtIndex(s: string): (i: nat)
    ensures i <= |s|
    ensures forall j :: 0 <= j < i ==> s[j] != '@'
    ensures i < |s| ==> s[i] == '@'
  {
    if s == [] || s[0] == '@' then 0 else 1 + AtIndex(s[1..])
  }

  /** A domain part with a `.` that is neither its first nor its last character. */
  predicate InnerDot(d: string) {
    exists k :: 0 < k < |d| - 1 && d[k] == '.'
  }

  /** The matcher: split at the first `@`; the local part must be non-empty and plain, and
      the domain part plain with an inner dot. */
  predicate MatchesEmail(s: string) {
    var i := AtIndex(s);
    0 < i < |s| && AllPlain(s[..i]) && AllPlain(s[i + 1..]) && InnerDot(s[i + 1..])
  }

  lemma MatcherSound(s: string)
    requires MatchesEmail(s)
    ensures EmailPattern(s)
  {
    var i := AtIndex(s);
    var d := s[i + 1..];
    var k :| 0 < k < |d| - 1 && d[k] == '.';
    var k' := i + 1 + k;
    assert s[k'] == '.';
    assert s[i + 1..k'] == d[..k];
    assert s[k' + 1..] == d[k + 1..];
    assert AllPlain(d[..k]) && AllPlain(d[k + 1..]);
  }

  lemma MatcherComplete(s: string, i: nat, k: nat)
    requires 0 < i && i + 1 < k && k + 1 < |s| && s[i] == '@' && s[k] == '.'
    requires AllPlain(s[..i]) && AllPlain(s[i + 1..k]) && AllPlain(s[k + 1..])
    ensures MatchesEmail(s)
  {
    assert forall j :: 0 <= j < i ==> s[..i][j] == s[j];
    assert AtIndex(s) == i;
    var d := s[i + 1..];
    assert d[k - i - 1] == '.';
    assert d == s[i + 1..k] + [s[k]] + s[k + 1..];
  }

  /** The matcher accepts exactly the language of the regular expression. */
  lemma MatchesEmailIffPattern(s: string)
    ensures MatchesEmail(s) <==> EmailPattern(s)
  {
    if MatchesEmail(s) {
      MatcherSound(s);
    }
    if EmailPattern(s) {
      var i, k :| 0 < i && i + 1 < k && k + 1 < |s| && s[i] == '@' && s[k] == '.'
        && AllPlain(s[..i]) && AllPlain(s[i + 1..k]) && AllPlain(s[k + 1..]);
      MatcherComplete(s, i, k);
    }
  }

  /** `email`: required after `trim`, then the regular expression on the untrimmed value. */
  function EmailError(value: string): (r: string)
    ensures r == "" <==> EmailPattern(value)
    ensures r == "Email is required" <==> IsBlank(value)
    ensures r == "Invalid email format" <==> !IsBlank(value) && !EmailPattern(value)
  {
    MatchesEmailIffPattern(value);
    assert EmailPattern(value) ==> !IsBlank(value) by {
      if EmailPattern(value) {
        var i, k :| 0 < i && i + 1 < k && k + 1 < |value| && value[i] == '@' && value[k] == '.'
          && AllPlain(value[..i]) && AllPlain(value[i + 1..k]) && AllPlain(value[k + 1..]);
        assert !IsWhitespace(value[i]);
      }
    }
    if Trim(value) == "" then "Email is required"
    else if !MatchesEmail(value) then "Invalid email format"
    else ""
  }

  // ---------- gender ----------

  /** `gender`: exactly one of the three option values. */
  function GenderError(value: string): (r: string)
    ensures r == "" <==> value in {"male", "female", "other"}
    ensures r != "" ==> r == "Select a valid gender"
  {
    if value in ["male", "female", "other"] then "" else "Select a valid gender"
  }

  // ---------- date of birth ----------

  /** The age test as written: the difference of the years, then months, then days. */
  predicate Underage(birth: Date, today: Date) {
    var age := today.year - birth.year;
    || age < 18
    || (age == 18 && (today.month < birth.month
                      || (today.month == birth.month && today.day < birth.day)))
  }

  /** `dob`: required, parseable, and the 18th birthday is not after `today`. */
  function DobError(value: DateInput, today: Date): (r: string)
    ensures r == "" <==>
      value.Valid? && !Before(today, Date(value.date.year + 18, value.date.month, value.date.day))
    ensures r == "Date of birth is required" <==> value.NoDate?
    ensures r == "Invalid date format" <==> value.Unparseable?
    ensures r == "You must be at least 18 years old" <==>
      value.Valid? && Before(today, Date(value.date.year + 18, value.date.month, value.date.day))
  {
    match value
    case NoDate => "Date of birth is required"
    case Unparseable => "Invalid date format"
    case Valid(birth) => if Underage(birth, today) then "You must be at least 18 years old" else ""
  }

  // ---------- password ----------

  predicate HasLower(p: string) { exists i :: 0 <= i < |p| && 'a' <= p[i] <= 'z' }
  predicate HasUpper(p: string) { exists i :: 0 <= i < |p| && 'A' <= p[i] <= 'Z' }
  predicate HasDigit(p: string) { exists i :: 0 <= i < |p| && '0' <= p[i] <= '9' }
  predicate HasSpecial(p: string) { exists i :: 0 <= i < |p| && p[i] in "!@#$%^&*" }

  /** The strength rule the chain enforces, as one conjunction. The length is `p.length`,
      in UTF-16 code units. */
  predicate StrongPassword(p: string) {
    JsLength(p) >= 8 && HasLower(p) && HasUpper(p) && HasDigit(p) && HasSpecial(p)
  }

  const ShortPassword: string := "Password must be at least 8 characters"
  const NoLower: string := "Password must include a lowercase letter"
  const NoUpper: string := "Password must include an uppercase letter"
  const NoDigit: string := "Password must include a number"
  const NoSpecial: string := "Password must include a special character"

  /** `password`: the six rules in their fixed order; only the first failure is reported. */
  function PasswordError(p: string): (r: string)
    ensures r == "" <==> StrongPassword(p)
    ensures r == "Password is required" <==> p == ""
    ensures r == ShortPassword <==> p != "" && JsLength(p) < 8
    ensures r == NoLower <==> JsLength(p) >= 8 && !HasLower(p)
    ensures r == NoUpper <==> JsLength(p) >= 8 && HasLower(p) && !HasUpper(p)
    ensures r == NoDigit <==> JsLength(p) >= 8 && HasLower(p) && HasUpper(p) && !HasDigit(p)
    ensures r == NoSpecial <==> JsLength(p) >= 8 && HasLower(p) && HasUpper(p) && HasDigit(p) && !HasSpecial(p)
  {
    if p == "" then "Password is required"
    else if JsLength(p) < 8 then ShortPassword
    else if !HasLower(p) then NoLower
    else if !HasUpper(p) then NoUpper
    else if !HasDigit(p) then NoDigit
    else if !HasSpecial(p) then NoSpecial
    else ""
  }

  /** Two emoji and four ASCII characters make eight UTF-16 code units, so this password
      passes every rule. */
  lemma AstralPasswordIsStrong()
    ensures PasswordError("\U{1F600}\U{1F600}Aa1!") == ""
  {
    TwoEmojiStrong('\U{1F600}');
    assert "\U{1F600}\U{1F600}Aa1!" == ['\U{1F600}', '\U{1F600}', 'A', 'a', '1', '!'];
  }

  lemma TwoEmojiStrong(e: char)
    requires Astral(e)
    ensures StrongPassword([e, e, 'A', 'a', '1', '!'])
  {
    var p := [e, e, 'A', 'a', '1', '!'];
    assert p == [e, e] + ['A', 'a', '1', '!'];
    JsLengthAppend([e, e], ['A', 'a', '1', '!']);
    JsLengthExtremes([e, e]);
    JsLengthExtremes(['A', 'a', '1', '!']);
    assert 'a' <= p[3] <= 'z' && 'A' <= p[2] <= 'Z' && '0' <= p[4] <= '9' && p[5] in "!@#$%^&*";
  }

  // ---------- the whole form ----------

  /** `validateField(name, formData[name])`. */
  function FieldError(form: Form, f: Field, today: Date): string {
    match f
    case FirstName => NameFieldError(Key(f), form.firstName)
    case LastName => NameFieldError(Key(f), form.lastName)
    case Email => EmailError(form.email)
    case Gender => GenderError(form.gender)
    case Dob => DobError(form.dob, today)
    case Password => PasswordError(form.password)
  }

  /** Each field's rule in terms of the independent characterisations above. */
  predicate FieldValid(form: Form, f: Field, today: Date) {
    match f
    case FirstName => JsLength(Trim(form.firstName)) >= 3
    case LastName => JsLength(Trim(form.lastName)) >= 3
    case Email => EmailPattern(form.email)
    case Gender => form.gender in {"male", "female", "other"}
    case Dob => form.dob.Valid? &&
      !Before(today, Date(form.dob.date.year + 18, form.dob.date.month, form.dob.date.day))
    case Password => StrongPassword(form.password)
  }

  lemma FieldErrorIffInvalid(form: Form, f: Field, today: Date)
    ensures FieldError(form, f, today) == "" <==> FieldValid(form, f, today)
  {
  }

  /** The keys of the error map: one per field, plus `skills`. */
  datatype ErrorKey = On(field: Field) | SkillsKey

  /** The error map built by validating `fields` in order; a field whose message is empty
      gets no entry. */
  function ErrorsFor(fields: seq<Field>, form: Form, today: Date): (m: map<ErrorKey, string>)
    ensures forall f :: f in fields ==> (On(f) in m <==> !FieldValid(form, f, today))
    ensures forall f :: f in fields && On(f) in m ==> m[On(f)] == FieldError(form, f, today)
    ensures forall key :: key in m ==> key.On? && key.field in fields && m[key] != ""
  {
    if fields == [] then map[]
    else
      var rest := ErrorsFor(fields[1..], form, today);
      var f := fields[0];
      FieldErrorIffInvalid(form, f, today);
      var e := FieldError(form, f, today);
      if e == "" then rest else rest[On(f) := e]
  }

  /** No entry is recorded exactly when every validated field passes. */
  lemma ErrorsEmptyIff(fields: seq<Field>, form: Form, today: Date)
    ensures ErrorsFor(fields, form, today) == map[] <==> forall f :: f in fields ==> FieldValid(form, f, today)
  {
    var m := ErrorsFor(fields, form, today);
    if forall f :: f in fields ==> FieldValid(form, f, today) {
      assert forall key :: key !in m;
    }
  }

  /** The map depends only on the validated fields' messages. */
  lemma {:induction false} ErrorsForAgree(fields: seq<Field>, a: Form, b: Form, ta: Date, tb: Date)
    requires forall f :: f in fields ==> FieldError(a, f, ta) == FieldError(b, f, tb)
    ensures ErrorsFor(fields, a, ta) == ErrorsFor(fields, b, tb)
  {
    if fields != [] {
      ErrorsForAgree(fields[1..], a, b, ta, tb);
    }
  }

  datatype Mode = SignIn | Register

  /** Sign-up validates every field of the form (in the order of its keys); sign-in only the
      email and the password. */
  function FieldsOf(mode: Mode): seq<Field> {
    match mode
    case Register => [FirstName, LastName, Email, Gender, Dob, Password]
    case SignIn => [Email, Password]
  }

  const SkillsRequired: string := "At least one skill is required"

  /** `newErrors` at the end of the validation part of `handleSubmit`. */
  function SubmitErrors(mode: Mode, form: Form, skills: seq<string>, today: Date): map<ErrorKey, string> {
    var m := ErrorsFor(FieldsOf(mode), form, today);
    if mode.Register? && |skills| == 0 then m[SkillsKey := SkillsRequired] else m
  }

  /** Everything sign-up demands, stated field by field. */
  predicate RegistrationValid(form: Form, skills: seq<string>, today: Date) {
    && JsLength(Trim(form.firstName)) >= 3
    && JsLength(Trim(form.lastName)) >= 3
    && EmailPattern(form.email)
    && form.gender in {"male", "female", "other"}
    && form.dob.Valid?
    && !Before(today, Date(form.dob.date.year + 18, form.dob.date.month, form.dob.date.day))
    && StrongPassword(form.password)
    && |skills| > 0
  }

  lemma RegisterFieldsValid(form: Form, skills: seq<string>, today: Date)
    ensures RegistrationValid(form, skills, today) <==>
      (forall f :: f in FieldsOf(Register) ==> FieldValid(form, f, today)) && |skills| > 0
  {
    var fields := FieldsOf(Register);
    forall f: Field ensures f in fields {
      match f
      case FirstName => assert fields[0] == f;
      case LastName => assert fields[1] == f;
      case Email => assert fields[2] == f;
      case Gender => assert fields[3] == f;
      case Dob => assert fields[4] == f;
      case Password => assert fields[5] == f;
    }
    var all := FieldValid(form, FirstName, today) && FieldValid(form, LastName, today)
      && FieldValid(form, Email, today) && FieldValid(form, Gender, today)
      && FieldValid(form, Dob, today) && FieldValid(form, Password, today);
    assert (forall f :: f in fields ==> FieldValid(form, f, today)) <==> all;
  }

  lemma SignInFieldsValid(form: Form, today: Date)
    ensures (forall f :: f in FieldsOf(SignIn) ==> FieldValid(form, f, today)) <==>
      EmailPattern(form.email) && StrongPassword(form.password)
  {
    var fields := FieldsOf(SignIn);
    assert forall f :: f in fields <==> f == Email || f == Password;
    assert FieldValid(form, Email, today) <==> EmailPattern(form.email);
    assert FieldValid(form, Password, today) <==> StrongPassword(form.password);
  }

  /** The error map is empty exactly when the mode's rules all hold. */
  lemma SubmitErrorsEmptyIff(mode: Mode, form: Form, skills: seq<string>, today: Date)
    ensures SubmitErrors(mode, form, skills, today) == map[] <==>
      if mode.Register? then RegistrationValid(form, skills, today)
      else EmailPattern(form.email) && StrongPassword(form.password)
  {
    ErrorsEmptyIff(FieldsOf(mode), form, today);
    if mode.Register? {
      RegisterFieldsValid(form, skills, today);
      if |skills| == 0 {
        assert SkillsKey in SubmitErrors(mode, form, skills, today);
      }
    } else {
      SignInFieldsValid(form, today);
    }
  }

  /** What `handleSubmit` does before awaiting: stop with errors, or send one request. */
  datatype Submission =
    | Blocked(errors: map<ErrorKey, string>)
    | SignupRequest(form: Form, skills: seq<string>)
    | LoginRequest(email: string, password: string)

  /** Submit gating: any error stops before the network; otherwise sign-up posts the whole
      form with the skills, sign-in posts email and password only. */
  function Submit(mode: Mode, form: Form, skills: seq<string>, today: Date): (r: Submission)
    ensures r.SignupRequest? <==> mode.Register? && RegistrationValid(form, skills, today)
    ensures r.LoginRequest? <==> mode.SignIn? && EmailPattern(form.email) && StrongPassword(form.password)
    ensures r.SignupRequest? ==> r.form == form && r.skills == skills
    ensures r.LoginRequest? ==> r.email == form.email && r.password == form.password
    ensures r.Blocked? ==> r.errors != map[] && forall key :: key in r.errors ==> r.errors[key] != ""
  {
    var errors := SubmitErrors(mode, form, skills, today);
    SubmitErrorsEmptyIff(mode, form, skills, today);
    if errors != map[] then Blocked(errors)
    else if mode.Register? then SignupRequest(form, skills)
    else LoginRequest(form.email, form.password)
  }

  /** Sign-in ignores every field it does not send: two forms that agree on email and
      password are gated identically, whatever the other fields, skills or date. */
  lemma SignInIgnoresOtherFields(a: Form, b: Form, sa: seq<string>, sb: seq<string>, ta: Date, tb: Date)
    requires a.email == b.email && a.password == b.password
    ensures SubmitErrors(SignIn, a, sa, ta) == SubmitErrors(SignIn, b, sb, tb)
    ensures Submit(SignIn, a, sa, ta) == Submit(SignIn, b, sb, tb)
  {
    var fields := FieldsOf(SignIn);
    assert FieldError(a, Email, ta) == EmailError(a.email) == FieldError(b, Email, tb);
    assert FieldError(a, Password, ta) == PasswordError(a.password) == FieldError(b, Password, tb);
    assert forall f :: f in fields ==> f == Email || f == Password;
    ErrorsForAgree(fields, a, b, ta, tb);
    assert SubmitErrors(SignIn, a, sa, ta) == ErrorsFor(fields, a, ta);
    assert SubmitErrors(SignIn, b, sb, tb) == ErrorsFor(fields, b, tb);
  }

  // ---------- server response ----------

  datatype AuthOutcome = Authenticated(user: User) | Rejected(message: Option<string>)

  /** The session, the navigation performed, and the `backend` error shown. */
  datatype AfterAuth = AfterAuth(user: Session, navigation: Option<string>, backendError: Option<string>)

  /** Success stores the returned user and goes home; failure keeps the session and shows the
      server's message or the generic fallback. */
  function CompleteAuth(held: Session, outcome: AuthOutcome): (r: AfterAuth)
    ensures outcome.Authenticated? ==>
      r.user == Some(outcome.user) && r.navigation == Some(HomePath) && r.backendError.None?
    ensures outcome.Rejected? ==>
      r.user == held && r.navigation.None? && r.backendError.Some? && r.backendError.value != ""
    ensures outcome.Rejected? && outcome.message.Some? && outcome.message.value != "" ==>
      r.backendError == Some(outcome.message.value)
    ensures outcome.Rejected? && (outcome.message.None? || outcome.message.value == "") ==>
      r.backendError == Some(GenericError)
  {
    match outcome
    case Authenticated(u) => AfterAuth(AddUser(held, u), Some(HomePath), None)
    case Rejected(msg) => AfterAuth(held, None, Some(BackendMessage(msg)))
  }
}

=== FILE: profile.dfy ===
/** The read-only profile page. */
module Profile {
  import opened Wrappers
  import opened Users
  import opened Avatars

  datatype SkillsView = NoSkillsAdded | Badges(skills: seq<string>)

  datatype View =
    | NoProfileFound
    | Card(image: Image, user: User, skills: SkillsView)

  /** With no user only the "No profile found" message is rendered; otherwise the card with
      the chosen picture and either the skill badges or "No skills added". */
  function ProfileView(held: Session): (v: View)
    ensures v.NoProfileFound? <==> held.None?
    ensures v.Card? ==> v.user == held.value && v.image == ProfileImage(held.value)
    ensures v.Card? ==> (v.skills.NoSkillsAdded? <==> held.value.skill.None? || held.value.skill.value == [])
    ensures v.Card? && v.skills.Badges? ==> v.skills.skills == held.value.skill.value
  {
    match held
    case None => NoProfileFound
    case Some(u) =>
      var skills := if u.skill.Some? && |u.skill.value| > 0 then Badges(u.skill.value) else NoSkillsAdded;
      Card(ProfileImage(u), u, skills)
  }
}

=== FILE: seqs.dfy ===
/** Order-preserving facts about sequences, shared by the feed list and the skill list. */
module Seqs {

  /** `a` can be obtained from `b` by deleting elements, keeping the rest in order. */
  predicate Subseq<T(==)>(a: seq<T>, b: seq<T>)
    decreases |b|
  {
    if a == [] then true
    else if b == [] then false
    else if a[0] == b[0] then Subseq(a[1..], b[1..])
    else Subseq(a, b[1..])
  }

  /** Prepending `s[i]` to the slice `s[i + 1..n]` gives the slice `s[i..n]`. */
  lemma ConsSlice<T>(s: seq<T>, i: nat, n: nat, whole: seq<T>, rest: seq<T>, later: seq<T>)
    requires i < n <= |s|
    requires whole == [s[i]] + rest && rest == s[i + 1..n] + later
    ensures whole == s[i..n] + later
  {
    assert s[i..n] == [s[i]] + s[i + 1..n];
  }

  /** Every element of a subsequence comes from the sequence it was taken from. */
  lemma {:induction false} SubseqMembers<T>(a: seq<T>, b: seq<T>)
    requires Subseq(a, b)
    ensures forall x :: x in a ==> x in b
  {
    if a != [] && b != [] {
      if a[0] == b[0] {
        SubseqMembers(a[1..], b[1..]);
        assert forall x :: x in a ==> x == a[0] || x in a[1..];
      } else {
        SubseqMembers(a, b[1..]);
      }
    }
  }

  /** The elements of `s` whose key differs from `k`, in their original order. */
  function Filter<T, K(==)>(s: seq<T>, key: T -> K, k: K): seq<T> {
    if s == [] then []
    else if key(s[0]) == k then Filter(s[1..], key, k)
    else [s[0]] + Filter(s[1..], key, k)
  }

  lemma {:induction false} FilterKeys<T, K>(s: seq<T>, key: T -> K, k: K)
    ensures |Filter(s, key, k)| <= |s|
    ensures forall i :: 0 <= i < |Filter(s, key, k)| ==> key(Filter(s, key, k)[i]) != k
    ensures forall x :: x in Filter(s, key, k) ==> x in s
  {
    if s != [] {
      FilterKeys(s[1..], key, k);
      assert forall x :: x in s[1..] ==> x in s;
    }
  }

  /** Each value keeps its multiplicity when its key differs from `k`, and disappears otherwise. */
  lemma {:induction false} FilterCount<T, K>(s: seq<T>, key: T -> K, k: K, x: T)
    ensures multiset(Filter(s, key, k))[x] == if key(x) == k then 0 else multiset(s)[x]
  {
    if s != [] {
      FilterCount(s[1..], key, k, x);
      assert s == [s[0]] + s[1..];
      assert multiset(s) == multiset{s[0]} + multiset(s[1..]);
    }
  }

  /** `s.filter(x => key(x) !== k)`: the elements of `s` whose key differs from `k`. */
  function Without<T, K(==)>(s: seq<T>, key: T -> K, k: K): (r: seq<T>)
    ensures |r| <= |s|
    ensures forall i :: 0 <= i < |r| ==> key(r[i]) != k
    ensures forall x :: x in s && key(x) != k ==> x in r
    ensures forall x :: x in r ==> x in s
    ensures forall i :: 0 <= i < |s| ==>
      multiset(r)[s[i]] == if key(s[i]) == k then 0 else multiset(s)[s[i]]
  {
    var r := Filter(s, key, k);
    FilterKeys(s, key, k);
    assert forall i :: 0 <= i < |s| ==>
      multiset(r)[s[i]] == if key(s[i]) == k then 0 else multiset(s)[s[i]] by {
      forall i | 0 <= i < |s| {
        FilterCount(s, key, k, s[i]);
      }
    }
    r
  }

  /** The filter keeps the surviving elements in their original relative order. */
  lemma {:induction false} WithoutIsSubseq<T, K>(s: seq<T>, key: T -> K, k: K)
    ensures Subseq(Without(s, key, k), s)
  {
    if s != [] {
      WithoutIsSubseq(s[1..], key, k);
      var rest := Without(s[1..], key, k);
      if key(s[0]) != k {
        assert Without(s, key, k) == [s[0]] + rest;
        assert ([s[0]] + rest)[1..] == rest;
      } else {
        SubseqDropHead(rest, s);
      }
    }
  }

  /** Putting one more element in front of the larger sequence keeps a subsequence a subsequence. */
  lemma SubseqDropHead<T>(a: seq<T>, b: seq<T>)
    requires b != [] && Subseq(a, b[1..])
    ensures Subseq(a, b)
    decreases |b|, 1
  {
    if a != [] && a[0] == b[0] {
      SubseqTail(a, b[1..]);
    }
  }

  lemma {:induction false} SubseqTail<T>(a: seq<T>, b: seq<T>)
    requires a != [] && Subseq(a, b)
    ensures Subseq(a[1..], b)
    decreases |b| + 1, 0
  {
    if a[0] == b[0] {
      if a[1..] != [] {
        SubseqDropHead(a[1..], b);
      }
    } else {
      SubseqTail(a, b[1..]);
      if a[1..] != [] {
        SubseqDropHead(a[1..], b);
      }
    }
  }

  /** Filtering out a key that no element carries leaves the sequence unchanged. */
  lemma {:induction false} WithoutAbsent<T, K>(s: seq<T>, key: T -> K, k: K)
    requires forall i :: 0 <= i < |s| ==> key(s[i]) != k
    ensures Without(s, key, k) == s
  {
    if s != [] {
      WithoutAbsent(s[1..], key, k);
      assert s == [s[0]] + s[1..];
    }
  }

  /** Filtering twice by the same key is the same as filtering once. */
  lemma WithoutIdempotent<T, K>(s: seq<T>, key: T -> K, k: K)
    ensures Without(Without(s, key, k), key, k) == Without(s, key, k)
  {
    WithoutAbsent(Without(s, key, k), key, k);
  }
}

=== FILE: skills.dfy ===
/** The skill-list editor that the sign-up form and the profile form share. */
module Skills {
  import opened Text
  import opened Seqs

  /** The list, the text box, and the `skills` entry of the form's error map. */
  datatype Editor = Editor(skills: seq<string>, input: string, error: string)

  const TooShort: string := "Skill must be at least 2 characters"

  predicate Distinct(s: seq<string>) {
    forall i, j :: 0 <= i < j < |s| ==> s[i] != s[j]
  }

  /** `handleAddSkill`: a trimmed input shorter than 2 UTF-16 code units only sets the error; a new
      trimmed skill is appended and the box and error are cleared; a skill already listed
      changes nothing. */
  function AddSkill(e: Editor): (r: Editor)
    ensures r.skills == e.skills || r.skills == e.skills + [Trim(e.input)]
    ensures Trim(e.input) in r.skills <==> JsLength(Trim(e.input)) >= 2 || Trim(e.input) in e.skills
    ensures JsLength(Trim(e.input)) < 2 ==> r.skills == e.skills && r.input == e.input && r.error == TooShort
    ensures r.skills != e.skills ==> JsLength(Trim(e.input)) >= 2 && r.input == "" && r.error == ""
    ensures Trim(e.input) in e.skills && JsLength(Trim(e.input)) >= 2 ==> r == e
    ensures Distinct(e.skills) ==> Distinct(r.skills)
  {
    var t := Trim(e.input);
    if JsLength(t) < 2 then e.(error := TooShort)
    else if t !in e.skills then Editor(e.skills + [t], "", "")
    else e
  }

  /** `handleRemoveSkill(s)` of the profile form: drop every entry equal to `s`, keep the rest
      in order. */
  function RemoveSkill(skills: seq<string>, s: string): (r: seq<string>)
    ensures s !in r
    ensures Subseq(r, skills)
    ensures forall i :: 0 <= i < |skills| ==>
      multiset(r)[skills[i]] == if skills[i] == s then 0 else multiset(skills)[skills[i]]
  {
    WithoutIsSubseq(skills, (x: string) => x, s);
    Without(skills, (x: string) => x, s)
  }

  /** Removing what was just added restores the list it was added to. */
  lemma AddThenRemove(e: Editor)
    requires JsLength(Trim(e.input)) >= 2 && Trim(e.input) !in e.skills
    ensures RemoveSkill(AddSkill(e).skills, Trim(e.input)) == e.skills
  {
    var t := Trim(e.input);
    WithoutAbsent(e.skills, (x: string) => x, t);
    WithoutAppendOne(e.skills, t);
  }

  lemma {:induction false} WithoutAppendOne(s: seq<string>, t: string)
    ensures Without(s + [t], (x: string) => x, t) == Without(s, (x: string) => x, t)
  {
    if s == [] {
      assert [t][1..] == [];
    } else {
      assert (s + [t])[1..] == s[1..] + [t];
      WithoutAppendOne(s[1..], t);
    }
  }

  /** Submitting the same text again after it was added leaves the list as it is. */
  lemma AddTwiceIsAddOnce(e: Editor)
    ensures AddSkill(AddSkill(e).(input := e.input)).skills == AddSkill(e).skills
  {
  }
}

=== FILE: text.dfy ===
/** The string primitives the forms rely on: JavaScript's `trim`, the `\s` class and
    `toLowerCase`, written out character by character. */
module Text {

  /** ECMAScript WhiteSpace and LineTerminator code points: what `String.prototype.trim`
      strips and what the regular-expression class `\s` matches. */
  predicate IsWhitespace(c: char) {
    || c == ' ' || c == '\t' || c == '\n' || c == '\r'
    || c == '\U{000B}' || c == '\U{000C}' || c == '\U{00A0}' || c == '\U{1680}'
    || ('\U{2000}' <= c <= '\U{200A}')
    || c == '\U{2028}' || c == '\U{2029}' || c == '\U{202F}' || c == '\U{205F}'
    || c == '\U{3000}' || c == '\U{FEFF}'
  }

  /** A string that `trim` reduces to `""`: the falsy case of `!value.trim()`. */
  predicate IsBlank(s: string) {
    forall i :: 0 <= i < |s| ==> IsWhitespace(s[i])
  }

  /** Number of whitespace characters at the front of `s`. */
  function LeadingSpace(s: string): (n: nat)
    ensures n <= |s|
    ensures forall i :: 0 <= i < n ==> IsWhitespace(s[i])
    ensures n < |s| ==> !IsWhitespace(s[n])
  {
    if |s| > 0 && IsWhitespace(s[0]) then 1 + LeadingSpace(s[1..]) else 0
  }

  /** Number of whitespace characters at the back of `s`. */
  function TrailingSpace(s: string): (n: nat)
    ensures n <= |s|
    ensures forall i :: |s| - n <= i < |s| ==> IsWhitespace(s[i])
    ensures n < |s| ==> !IsWhitespace(s[|s| - n - 1])
  {
    if |s| > 0 && IsWhitespace(s[|s| - 1]) then 1 + TrailingSpace(s[..|s| - 1]) else 0
  }

  /** `s.trim()`: the longest infix of `s` that neither starts nor ends with whitespace,
      obtained by removing only whitespace from the two ends. */
  function Trim(s: string): (r: string)
    ensures LeadingSpace(s) + |r| <= |s|
    ensures r == [] || (!IsWhitespace(r[0]) && !IsWhitespace(r[|r| - 1]))
    ensures r == [] <==> IsBlank(s)
    ensures forall i :: 0 <= i < |r| ==> r[i] == s[LeadingSpace(s) + i]
    ensures forall i :: 0 <= i < LeadingSpace(s) ==> IsWhitespace(s[i])
    ensures forall i :: LeadingSpace(s) + |r| <= i < |s| ==> IsWhitespace(s[i])
  {
    var rest := s[LeadingSpace(s)..];
    var r := rest[..|rest| - TrailingSpace(rest)];
    assert IsBlank(s) ==> LeadingSpace(s) == |s|;
    r
  }

  /** A code point above the Basic Multilingual Plane: JavaScript stores it as a surrogate
      pair, two UTF-16 code units. */
  predicate Astral(c: char) {
    c > '\U{FFFF}'
  }

  /** `s.length` in JavaScript: the number of UTF-16 code units, one per character of the
      Basic Multilingual Plane and two per astral character. */
  function JsLength(s: string): (n: nat)
    ensures |s| <= n <= 2 * |s|
  {
    if s == [] then 0 else (if Astral(s[0]) then 2 else 1) + JsLength(s[1..])
  }

  /** Without astral characters the code-unit length is the character count; with only
      astral characters it is twice that. */
  lemma {:induction false} JsLengthExtremes(s: string)
    ensures (forall i :: 0 <= i < |s| ==> !Astral(s[i])) ==> JsLength(s) == |s|
    ensures (forall i :: 0 <= i < |s| ==> Astral(s[i])) ==> JsLength(s) == 2 * |s|
  {
    if s != [] {
      JsLengthExtremes(s[1..]);
      assert forall i :: 0 <= i < |s[1..]| ==> s[1..][i] == s[i + 1];
    }
  }

  /** The code-unit length adds up over concatenation. */
  lemma {:induction false} JsLengthAppend(a: string, b: string)
    ensures JsLength(a + b) == JsLength(a) + JsLength(b)
  {
    if a == [] {
      assert a + b == b;
    } else {
      assert (a + b)[1..] == a[1..] + b;
      JsLengthAppend(a[1..], b);
    }
  }

  /** `toLowerCase` on one character, for the ASCII letters A–Z. */
  function LowerChar(c: char): (d: char)
    ensures 'a' <= d <= 'z' ==> ('a' <= c <= 'z' || 'A' <= c <= 'Z')
    ensures !('A' <= c <= 'Z') ==> d == c
  {
    if 'A' <= c <= 'Z' then (c as int - 'A' as int + 'a' as int) as char else c
  }

  /** `s.toLowerCase()`, restricted to ASCII letters (see README). */
  function ToLower(s: string): (r: string)
    ensures |r| == |s|
    ensures forall i :: 0 <= i < |s| ==> r[i] == LowerChar(s[i])
  {
    if s == [] then [] else [LowerChar(s[0])] + ToLower(s[1..])
  }

  /** Lowering is idempotent: an already lower-cased string does not change. */
  lemma ToLowerIdempotent(s: string)
    ensures ToLower(ToLower(s)) == ToLower(s)
  {
    var t := ToLower(s);
    assert forall i :: 0 <= i < |t| ==> LowerChar(t[i]) == t[i];
  }
}

=== FILE: update_profile.dfy ===
/** The profile editing page: prefilling from the held user, validation, submit gating and
    what the server's answer does. */
module UpdateProfile {
  import opened Wrappers
  import opened Text
  import opened Users
  import opened Validation
  import opened Avatars

  /** The form state. */
  datatype Form = Form(
    firstName: string,
    lastName: string,
    gender: string,
    dob: DateInput,
    profileImg: string)

  /** What the page shows once the user arrives: the form, the skill list and the preview. */
  datatype Prefilled = Prefilled(form: Form, skills: seq<string>, preview: Image)

  /** The fill-in effect: each missing field becomes `""`, a missing date the empty date
      input, a missing skill list `[]`; the preview follows the trimmed-image rule. */
  function Prefill(u: User): (r: Prefilled)
    ensures r.form.firstName == u.firstName.GetOr("") && r.form.lastName == u.lastName.GetOr("")
    ensures r.form.gender == u.gender.GetOr("") && r.form.profileImg == u.profileImg.GetOr("")
    ensures r.form.dob.NoDate? <==> u.dob.None?
    ensures u.dob.Some? ==> r.form.dob == Valid(u.dob.value)
    ensures r.skills == u.skill.GetOr([])
    ensures r.preview == PreviewImage(u)
  {
    var dob := if u.dob.Some? then Valid(u.dob.value) else NoDate;
    Prefilled(
      Form(u.firstName.GetOr(""), u.lastName.GetOr(""), u.gender.GetOr(""), dob, u.profileImg.GetOr("")),
      u.skill.GetOr([]),
      PreviewImage(u))
  }

  datatype ErrorKey = FirstNameKey | LastNameKey | GenderKey | DobKey | SkillsKey

  const DobRequired: string := "Date of Birth is required"
  const DobInFuture: string := "Date of Birth cannot be in the future"

  /** The `dob` rule: required; a date after today is rejected. Text that does not parse
      compares false with today and so passes. */
  function DobError(value: DateInput, today: Date): (r: string)
    ensures r == "" <==> value.Unparseable? || (value.Valid? && !Before(today, value.date))
    ensures r == DobRequired <==> value.NoDate?
    ensures r == DobInFuture <==> value.Valid? && Before(today, value.date)
  {
    match value
    case NoDate => DobRequired
    case Unparseable => ""
    case Valid(d) => if Before(today, d) then DobInFuture else ""
  }

  const FirstNameRequired: string := "First name is required"
  const FirstNameShort: string := "First name must be at least 2 characters"
  const LastNameRequired: string := "Last name is required"
  const LastNameShort: string := "Last name must be at least 2 characters"

  /** The message `validateForm` records under `key`, or `""` when that rule passes. Names
      need a `trim().length` of 2 UTF-16 code units here. */
  function Message(form: Form, skills: seq<string>, today: Date, key: ErrorKey): (r: string)
    ensures key == FirstNameKey ==> (r == "" <==> JsLength(Trim(form.firstName)) >= 2)
    ensures key == LastNameKey ==> (r == "" <==> JsLength(Trim(form.lastName)) >= 2)
    ensures key == GenderKey ==> (r == "" <==> form.gender != "")
    ensures key == DobKey ==> (r == "" <==> form.dob.Unparseable? || (form.dob.Valid? && !Before(today, form.dob.date)))
    ensures key == SkillsKey ==> (r == "" <==> |skills| > 0)
  {
    match key
    case FirstNameKey => NameError(form.firstName, 2, FirstNameRequired, FirstNameShort)
    case LastNameKey => NameError(form.lastName, 2, LastNameRequired, LastNameShort)
    case GenderKey => if form.gender == "" then "Please select a gender" else ""
    case DobKey => DobError(form.dob, today)
    case SkillsKey => if |skills| == 0 then "Please add at least one skill" else ""
  }

  /** `newErrors` of `validateForm`: an entry for each failing rule. */
  function ValidateForm(form: Form, skills: seq<string>, today: Date): (errors: map<ErrorKey, string>)
    ensures FirstNameKey in errors <==> JsLength(Trim(form.firstName)) < 2
    ensures LastNameKey in errors <==> JsLength(Trim(form.lastName)) < 2
    ensures GenderKey in errors <==> form.gender == ""
    ensures DobKey in errors <==> form.dob.NoDate? || (form.dob.Valid? && Before(today, form.dob.date))
    ensures SkillsKey in errors <==> |skills| == 0
    ensures forall k :: k in errors ==> errors[k] != ""
  {
    map k: ErrorKey | Message(form, skills, today, k) != "" :: Message(form, skills, today, k)
  }

  /** Everything the profile form demands, stated field by field. */
  predicate ProfileValid(form: Form, skills: seq<string>, today: Date) {
    && JsLength(Trim(form.firstName)) >= 2
    && JsLength(Trim(form.lastName)) >= 2
    && form.gender != ""
    && (form.dob.Unparseable? || (form.dob.Valid? && !Before(today, form.dob.date)))
    && |skills| > 0
  }

  /** `validateForm()`: true exactly when no error was recorded. */
  function IsValid(form: Form, skills: seq<string>, today: Date): (ok: bool)
    ensures ok <==> ProfileValid(form, skills, today)
  {
    ValidateFormEmptyIff(form, skills, today);
    ValidateForm(form, skills, today) == map[]
  }

  lemma ValidateFormEmptyIff(form: Form, skills: seq<string>, today: Date)
    ensures ValidateForm(form, skills, today) == map[] <==> ProfileValid(form, skills, today)
  {
    var errors := ValidateForm(form, skills, today);
    if ProfileValid(form, skills, today) {
      forall k | k in errors ensures false {
        match k
        case FirstNameKey =>
        case LastNameKey =>
        case GenderKey =>
        case DobKey =>
        case SkillsKey =>
      }
    } else if JsLength(Trim(form.firstName)) < 2 {
      assert FirstNameKey in errors;
    } else if JsLength(Trim(form.lastName)) < 2 {
      assert LastNameKey in errors;
    } else if form.gender == "" {
      assert GenderKey in errors;
    } else if |skills| == 0 {
      assert SkillsKey in errors;
    } else {
      assert DobKey in errors;
    }
  }

  /** The fields sent with `PATCH /user/profile`. */
  datatype ProfileRequest = ProfileRequest(
    firstName: string, lastName: string, gender: string, dob: DateInput, skills: seq<string>)

  /** `handleSubmit`: abort when validation fails, otherwise send the form and the skills. */
  function Submit(form: Form, skills: seq<string>, today: Date): (r: Option<ProfileRequest>)
    ensures r.Some? <==> ProfileValid(form, skills, today)
    ensures r.Some? ==> r.value == ProfileRequest(form.firstName, form.lastName, form.gender, form.dob, skills)
  {
    if !IsValid(form, skills, today) then None
    else Some(ProfileRequest(form.firstName, form.lastName, form.gender, form.dob, skills))
  }

  /** A held user missing a name or a skill list cannot be saved without further edits. */
  lemma MissingFieldsBlockSave(u: User, today: Date)
    requires u.firstName.None? || u.lastName.None? || u.gender.None? || u.skill.None?
    ensures Submit(Prefill(u).form, Prefill(u).skills, today).None?
  {
  }

  datatype UpdateOutcome = Updated(user: User) | Rejected(message: Option<string>)

  /** The session, the navigation performed, and the error banner shown. */
  datatype AfterUpdate = AfterUpdate(user: Session, navigation: Option<string>, banner: Option<string>)

  /** The server is authoritative: success replaces the held user by the returned one and
      goes to the profile page; failure keeps the session and shows the server's message or
      the generic fallback. */
  function CompleteUpdate(held: Session, outcome: UpdateOutcome): (r: AfterUpdate)
    ensures outcome.Updated? ==>
      r.user == Some(outcome.user) && r.navigation == Some(ProfilePath) && r.banner.None?
    ensures outcome.Rejected? ==> r.user == held && r.navigation.None? && r.banner.Some?
    ensures outcome.Rejected? && outcome.message.Some? && outcome.message.value != "" ==>
      r.banner == Some(outcome.message.value)
    ensures outcome.Rejected? && (outcome.message.None? || outcome.message.value == "") ==>
      r.banner == Some(GenericError)
  {
    match outcome
    case Updated(u) => AfterUpdate(AddUser(held, u), Some(ProfilePath), None)
    case Rejected(msg) => AfterUpdate(held, None, Some(BackendMessage(msg)))
  }
}

=== FILE: users.dfy ===
/** The user record the server returns and the `user` slice of the store that holds it. */
module Users {
  import opened Wrappers

  /** A calendar date as (year, month, day); the month is 1-based here, and only its
      order matters for the comparisons the forms make. */
  datatype Date = Date(year: int, month: int, day: int)

  /** Strict chronological order of two dates. */
  predicate Before(a: Date, b: Date) {
    || a.year < b.year
    || (a.year == b.year && a.month < b.month)
    || (a.year == b.year && a.month == b.month && a.day < b.day)
  }

  type Id = string

  /** A user as returned by the server. `_id` is always present; every other field may be
      missing, which the components test with `||`, `?.` or truthiness. */
  datatype User = User(
    id: Id,
    firstName: Option<string>,
    lastName: Option<string>,
    email: Option<string>,
    gender: Option<string>,
    dob: Option<Date>,
    profileImg: Option<string>,
    skill: Option<seq<string>>)

  /** The `user` slice: the authenticated user, or nothing. */
  type Session = Option<User>

  /** The `addUser` action: the payload replaces whatever user was held. */
  function AddUser(held: Session, u: User): (r: Session)
    ensures r.Some? && r.value == u
  {
    Some(u)
  }

  /** The `removeUser` action: afterwards no user is held. */
  function RemoveUser(held: Session): (r: Session)
    ensures r.None?
  {
    None
  }

  /** Navigation targets the components use. */
  const HomePath: string := "/"
  const LoginPath: string := "/login"
  const ProfilePath: string := "/profile"

  /** The fallback shown when a failed request carries no server message. */
  const GenericError: string := "Something went wrong"

  /** `error.response?.data?.message || "Something went wrong"`: the server's message when it
      sent a non-empty one, otherwise the generic text. */
  function BackendMessage(message: Option<string>): (r: string)
    ensures r != ""
    ensures r == GenericError || (message.Some? && r == message.value)
    ensures message.Some? && message.value != "" ==> r == message.value
  {
    match message
    case Some(m) => if m != "" then m else GenericError
    case None => GenericError
  }
}

=== FILE: validation.dfy ===
/** Building blocks shared by the two forms: the trimmed-name rule and the date input. */
module Validation {
  import opened Text
  import opened Users

  /** A required name: blank after `trim` is one error, a `trim().length` below `min` is
      another, checked in that order. The length counts UTF-16 code units. */
  function NameError(value: string, min: nat, required: string, tooShort: string): (r: string)
    requires min >= 1 && required != "" && tooShort != "" && required != tooShort
    ensures r == "" <==> JsLength(Trim(value)) >= min
    ensures r == required <==> IsBlank(value)
    ensures r == tooShort <==> !IsBlank(value) && JsLength(Trim(value)) < min
  {
    if Trim(value) == "" then required
    else if JsLength(Trim(value)) < min then tooShort
    else ""
  }

  /** One astral character, say an emoji, already meets a minimum of 2: JavaScript counts
      its surrogate pair. */
  lemma AstralNameMeetsTwo(c: char, required: string, tooShort: string)
    requires Astral(c) && required != "" && tooShort != "" && required != tooShort
    ensures NameError([c], 2, required, tooShort) == ""
  {
    assert [c][0] == c && !IsWhitespace(c);
  }

  /** The value of a date input: empty, text that `new Date` cannot parse, or a date. */
  datatype DateInput = NoDate | Unparseable | Valid(date: Date)
}

=== FILE: wrappers.dfy ===
/** Absent-or-present values: the model's stand-in for JavaScript's `undefined`/`null`. */
module Wrappers {

  datatype Option<+T> = None | Some(value: T) {

    /** Returns the held value, or `default` when there is none. */
    function GetOr(default: T): T {
      match this
      case Some(v) => v
      case None => default
    }
  }
}
